=== FILE: README.md ===
# papis formatting and arXiv identifier scanning, in Dafny

This project models two parts of papis, a command-line bibliography manager.

The first is the formatting engine of `papis/format.py`:
- the Python and Jinja2 formatters, which bind the document under a name and
  return an engine failure as its message instead of raising it;
- the custom formatter, which builds a Better-BibTeX-style citation key for
  the template "custom_ref" and hands every other template to the Python
  formatter;
- the process-wide formatter cache of `get_formater`;
- the module-level `format` entry point.

The second is the arXiv support of `papis/arxiv.py`:
- `find_arxivid_in_text`, the regular-expression search for an arXiv
  identifier, modelled down to the choices a backtracking engine makes;
- the search-query assembly of `get_data`;
- the line loop of `pdf_to_arxivid`;
- the `Downloader` methods `match`, `_get_identifier`, `get_bibtex_url` and
  `get_document_url`.

Files:
- `wrappers.dfy`: `Option` and `Result`.
- `text.dfy`: Python's `str.lower`, `str.capitalize`, `str.split()`,
  `str.join`, and character deletion in the style of `re.sub('[^...]+', '', s)`.
- `citekey.dfy`: the citation key, including the 135-entry stop-word table.
- `formatters.dfy`: the formatters, the cache and the dispatch.
- `arxiv_id.dfy`: the identifier regular expression, as a set of matching
  paths ordered the way the engine tries them.
- `arxiv.dfy`: the query, the PDF line loop and the downloader.

The template engines (`str.format`, Jinja2) are parameters of type
`Renderer`. The configuration is a record of the two options this module
reads. The plugin registry is a map from names to formatters. The cached
formatter is passed in and returned explicitly. The file read by
`pdf_to_arxivid` is given as its sequence of byte lines.

How errors and comparisons are modelled:
- On the "custom_ref" path, a missing or ill-typed field raises Python's
  KeyError, IndexError, TypeError or AttributeError. The model reports it
  as the error `MissingField` or `WrongType`.
- Stop words are tested with `in` on words that are already lower-cased.
- InvalidFormatterValue carries the registered formatter names.
- As written, the "custom_ref" branch cannot run at all (see Findings). The
  module CiteKey models the key the code evidently intends.

## Model

| member | source | states |
|---|---|---|
| Text.LowerChar | papis/format.py:120 | Lower-casing one character yields one or two characters and no ASCII capital: ASCII capitals become their letter, U+0130 becomes "i" with a combining dot, U+212A becomes "k", and every other character stays as it is |
| Text.Lower | papis/format.py:120 | `str.lower` leaves no ASCII capital and never shortens the text; its value is fixed by `LowerSingle` and `LowerAppend` |
| Text.LowerSingle | papis/format.py:120 | `str.lower` of one character is `LowerChar` of it: U+0130 gives "i" and a combining dot, U+212A gives "k", ASCII capitals their lower-case letter |
| Text.LowerAppend | papis/format.py:120 | Lower-casing distributes over concatenation |
| Text.LowerIdentity | papis/format.py:122 | Text without capitals, U+0130 or U+212A is its own lower-case form |
| Text.Keep | papis/format.py:120 | Deleting the characters outside a class keeps a subsequence of the input, all inside the class, and never lengthens it |
| Text.KeepCounts | papis/format.py:123 | Every element in the class is kept exactly as often as it occurs |
| Text.KeepMembers | papis/arxiv.py:59 | An element is kept exactly when it occurs in the input and satisfies the filter |
| Text.KeepIdempotent | papis/format.py:124-126 | Filtering twice with the same test equals filtering once |
| Text.KeepAll | papis/format.py:123 | Input whose elements all pass the filter is returned whole |
| Text.KeepAppend | papis/format.py:120 | Deletion distributes over concatenation |
| Text.KeepKeep | papis/format.py:122-126 | Filtering with one test and then another is filtering with their conjunction |
| Text.Replace | papis/format.py:122 | Replacing a character changes exactly its occurrences and nothing else |
| Text.SpanRun | papis/arxiv.py:157 | Every character of the greedy run from a position satisfies the class |
| Text.SpanExact | papis/arxiv.py:155 | A run of the class that cannot be extended is exactly the greedy run |
| Text.Words | papis/format.py:126 | `str.split()` yields non-empty whitespace-free words whose characters all come from the text; `WordsCons` and `WordsOfSpaceLed` fix where words break, and `WordsConcat` that nothing but whitespace is dropped |
| Text.WordsJoin | papis/format.py:126 | Splitting words joined by single spaces gives back exactly those words |
| Text.WordsConcat | papis/format.py:126 | The words of `str.split()`, run together, are exactly the text's non-whitespace characters in order |
| Text.WordsCons | papis/format.py:126 | A word followed by whitespace or the end of the text is split off whole, so words break exactly at runs of whitespace |
| Text.WordsOfSpaceLed | papis/format.py:126 | Leading whitespace contributes no word |
| Text.Join | papis/arxiv.py:60-62 | Joining no items gives the empty string and one item gives that item; with two or more the first item and the separator start the result |
| Text.JoinSnoc | papis/arxiv.py:60-62 | Appending an item to a non-empty join adds the separator and the item, so the separator stands between every two neighbours |
| Text.JoinOccurs | papis/arxiv.py:60-62 | Every item occurs as a substring of the join |
| Text.Concat | papis/format.py:127 | `''.join`: no pieces give the empty string (`ConcatIsJoin` fixes the rest) |
| Text.ConcatIsJoin | papis/format.py:127 | `''.join(xs)` is the join with the empty separator |
| Text.Capitalize | papis/format.py:124 | Capitalising upper-cases the first character, lower-cases the rest and leaves no ASCII capital after the first character; empty stays empty |
| Text.LowerCapitalize | papis/format.py:124 | Lower-casing a capitalised lower-case word gives the word back |
| Text.ConcatChars | papis/format.py:127 | A property of every character of every piece holds for the concatenation |
| Text.SplitAtLastUnique | papis/format.py:128 | A string built as a + c + b, with no c in b, splits at its last c into exactly a and b |
| CiteKey.SkipWordsAreShort | papis/format.py:91-112 | No entry of SKIP_WORDS is longer than fifteen characters |
| CiteKey.LongWordIsNotSkipWord | papis/format.py:91-112 | A word longer than fifteen characters is not in SKIP_WORDS |
| CiteKey.SkipWord | papis/format.py:91-112 | The 135 entries of SKIP_WORDS, in source order ("for" twice) |
| CiteKey.IsSkipWord | papis/format.py:125 | `word in SKIP_WORDS` |
| CiteKey.SkipWordsAreTheTable | papis/format.py:91-112 | A word is a stop word exactly when it equals one of the table's entries |
| CiteKey.Survives | papis/format.py:125 | The filter lambda: the word is non-empty and not a stop word |
| CiteKey.AuthorToken | papis/format.py:120 | The author token holds only `[a-z]` and is a subsequence of the lower-cased family name |
| CiteKey.AuthorTokenKeepsLetters | papis/format.py:120 | Every `[a-z]` letter of the lower-cased family name is kept as often as it occurs |
| CiteKey.AuthorTokenOfLowercase | papis/format.py:120 | A family name in lower-case ASCII letters is its own token |
| CiteKey.AuthorTokenIdempotent | papis/format.py:120 | Deriving a token from a token changes nothing |
| CiteKey.AuthorTokenDropsNonAscii | papis/format.py:120 | A letter with no ASCII lower-case form, like the ü of Müller, is dropped and the rest is joined together |
| CiteKey.YearToken | papis/format.py:121 | The year token is the last two characters of the year, or the whole year when it is shorter |
| CiteKey.CleanTitle | papis/format.py:122-123 | The cleaned title holds only `[0-9a-z ]` and is a subsequence of the lower-cased title with hyphens turned into spaces (`CleanTitleKeeps` adds that every such character is kept) |
| CiteKey.CleanTitleKeeps | papis/format.py:122-123 | Every `[0-9a-z ]` character of the lower-cased, de-hyphenated title is kept as often as it occurs |
| CiteKey.CleanTitleWords | papis/format.py:122-126 | The words of the cleaned title, run together, are exactly the `[0-9a-z]` characters of the lower-cased title, in order |
| CiteKey.CleanWordsAreKeyWords | papis/format.py:122-126 | Every word of the cleaned title consists of `[0-9a-z]` only |
| CiteKey.OneWordTitle | papis/format.py:122-126 | A title that is one `[0-9a-z]` word splits into just that word |
| CiteKey.TitleWords | papis/format.py:124-126 | The surviving words are non-empty, not stop words, made of `[0-9a-z]`, and a subsequence of the title words |
| CiteKey.TitleWordsKeepSurvivors | papis/format.py:124-126 | Every non-empty non-stop word survives as often as it occurs in the title |
| CiteKey.TitleFilterIdempotent | papis/format.py:124-126 | Applying the stop-word filter again removes nothing |
| CiteKey.OnlyLiveSkipWordsMatter | papis/format.py:124-126 | Filtering with only the all-`[0-9a-z]` stop words gives the same title words |
| CiteKey.SpacedSkipWords | papis/format.py:101-104 | " thru" and "according to" are stop words that can never match a single title word |
| CiteKey.PunctuatedSkipWords | papis/format.py:103-110 | "vs.", "vis-à-vis" and "d'" are stop words that can never match a cleaned title word |
| CiteKey.CapitalsOfKeyWords | papis/format.py:124-127 | Lower-casing the joined capitalised words gives the joined words, and every character is `[0-9a-z]` or an ASCII capital |
| CiteKey.CapitalizedChars | papis/format.py:124 | Capitalising a `[0-9a-z]` word upper-cases its first letter and keeps the rest as they are, so it holds only `[0-9a-z]` and ASCII capitals |
| CiteKey.TitleToken | papis/format.py:124-127 | The title token is the first four or fewer surviving words run together, each with its first letter upper-cased and the rest unchanged; lower-cased it is those words, and it holds only `[0-9a-zA-Z]` |
| CiteKey.Key | papis/format.py:119-128 | The key contains "_", and splitting at its last "_" gives author token + year token before it and the title token after it |
| Formatters.PythonFormat | papis/format.py:48-54 | The rendered text on success and the exception's message on failure, with the document bound under the doc key or the configured name |
| Formatters.DocKeyOverridesConfig | papis/format.py:48 | With a non-empty doc key the configured binding name has no effect |
| Formatters.EmptyDocKeyUsesConfig | papis/format.py:48 | With an empty doc key the document is bound under the configured name |
| Formatters.FirstFamily | papis/format.py:120 | `doc['author_list'][0]['family']` succeeds exactly when the list exists, is a non-empty list of records and its first has a family name, and gives that name; a missing key or index is MissingField and a value of the wrong kind WrongType |
| Formatters.TextField | papis/format.py:121-122 | `doc[name]` used as a string: MissingField when absent, WrongType when not a string, the text otherwise |
| Formatters.Jinja2Format | papis/format.py:62-85 | Behaves like the Python formatter on its own engine; without jinja2 every call returns the missing-attribute message |
| Formatters.CustomFormat | papis/format.py:114-130 | "custom_ref" yields the key exactly when the document has the fields it reads, failing only with a missing or ill-typed field; other templates give the Python formatter's output |
| Formatters.CustomFormatAsWritten | papis/format.py:119-120 | As written, "custom_ref" always raises NameError for `re`; other templates agree with the intended formatter |
| Formatters.AsWrittenNeverBuildsKey | papis/format.py:119-120 | For a complete document the as-written formatter fails where the intended one returns a key |
| Formatters.TitleWordsAsWritten | papis/format.py:124-126 | The filter as written succeeds exactly when the cleaned title has no words, and then agrees with the intended filter |
| Formatters.SkipWordsAsWrittenFails | papis/format.py:124-126 | A one-word title of an ordinary word makes the as-written filter fail, while the intended filter keeps the word |
| Formatters.SkipWordsAsWrittenExample | papis/format.py:124-126 | The title "characterization" makes the as-written filter fail |
| Formatters.FormatWith | papis/format.py:160 | Each plugin gives its own formatter's result: Python and Jinja2 their rendering, Custom the key or the Python rendering; only the custom formatter on "custom_ref" with an incomplete document fails |
| Formatters.GetFormatter | papis/format.py:137-152 | A cached formatter is returned as is; otherwise the configured name is looked up and cached; an unknown name raises InvalidFormatterValue with the registered names and leaves the cache empty |
| Formatters.SelectionIsSticky | papis/format.py:139-152 | Once cached, every later call returns the same formatter whatever the configuration says |
| Formatters.FirstSuccessIsFinal | papis/format.py:137-152 | Calls fail until the first successful lookup, and from then on all return that formatter |
| Formatters.RetryAfterFailure | papis/format.py:140-149 | A failed lookup does not poison the cache: a later call with a registered name succeeds |
| Formatters.Format | papis/format.py:155-160 | The call leaves the cache as `get_formater` leaves it; an empty cache means InvalidFormatterValue; otherwise the result is what the selected formatter returns, and only the custom key can fail |
| Formatters.CustomDelegatesToPython | papis/format.py:129-130 | With the custom formatter selected, templates other than "custom_ref" render as with the Python formatter |
| Formatters.CustomRefIsKey | papis/format.py:119-128 | With the custom formatter selected and a document holding the key fields, `format("custom_ref", doc)` returns the citation key |
| ArxivId.TailForced | papis/arxiv.py:155-157 | In a tail match both whitespace runs and the quote are forced, and the identifier ends no later than the run of identifier characters |
| ArxivId.MatchTail | papis/arxiv.py:155-157 | A tail match found is a tail match of the pattern with the given groups |
| ArxivId.TailFirst | papis/arxiv.py:155-157 | Whenever a tail match exists, `MatchTail` finds one that agrees with it except for a longer or equal identifier |
| ArxivId.MatchSection | papis/arxiv.py:153-157 | A match found with given groups is a match of the whole pattern |
| ArxivId.SectionFirst | papis/arxiv.py:153-157 | Among matches with the same groups, `MatchSection` returns the one the engine tries first |
| ArxivId.MatchHost | papis/arxiv.py:153-157 | A match found with a given host group is a match of the whole pattern |
| ArxivId.HostFirst | papis/arxiv.py:153-157 | Among matches with the same host group, the sections are tried in pattern order and the first match is returned |
| ArxivId.MatchAt | papis/arxiv.py:152-162 | A match found at a position is a match of the whole pattern there |
| ArxivId.MatchAtFirst | papis/arxiv.py:152-162 | Wherever the pattern matches, `MatchAt` succeeds and returns the match a backtracking engine reaches first |
| ArxivId.NoMatchNoPath | papis/arxiv.py:152-162 | Where `MatchAt` fails, no match of the pattern starts |
| ArxivId.Search | papis/arxiv.py:163-165 | A position found by the scan lies at or after the start, and `MatchAt` succeeds there with the returned match |
| ArxivId.SearchLeftmost | papis/arxiv.py:163-165 | No position between the start and the one returned matches, and the scan fails only when nothing matches from the start on |
| ArxivId.LongerPath | papis/arxiv.py:157 | A match whose identifier could go on has a longer alternative that the greedy group tries first |
| ArxivId.Group | papis/arxiv.py:167 | The `arxivid` group of a match is non-empty and free of forbidden characters |
| ArxivId.FirstGroupIsMaximal | papis/arxiv.py:157-167 | In the first match the identifier cannot be extended: a forbidden character or the end of the text follows it |
| ArxivId.FindArxivId | papis/arxiv.py:146-171 | None exactly when the pattern matches nowhere; otherwise the `arxivid` group of the leftmost match along the path the engine reaches first, a maximal run of identifier characters where the group starts |
| ArxivId.NoArxivNoId | papis/arxiv.py:152-171 | Text without a case-insensitive "arxiv" yields no identifier |
| ArxivId.IsForbidden | papis/arxiv.py:150 | The characters the identifier group excludes: quotes, parentheses, whitespace and `%!$^<>@,;:#?&` |
| ArxivId.IsPath | papis/arxiv.py:152-162 | The case-insensitive pattern matches at a position along one choice of groups, whitespace runs, quote and identifier end |
| ArxivId.Precedes | papis/arxiv.py:152-162 | The order a backtracking engine tries paths in: alternatives in pattern order, greedy runs longest first, the optional quote taken first |
| ArxivId.PrecedesIsStrictTotal | papis/arxiv.py:152-162 | That order is irreflexive, transitive and total, so the first matching path at a position is unique |
| Arxiv.SearchQuery | papis/arxiv.py:58-62 | The query is empty exactly when all nine arguments are empty |
| Arxiv.JoinKeptIsAssemble | papis/arxiv.py:59-62 | Joining the segments of the set fields equals adding each set field's segment in turn, with "+AND+" between segments |
| Arxiv.SearchQueryAssembles | papis/arxiv.py:47-62 | The query holds the set fields in dictionary order, as the field-by-field construction writes them |
| Arxiv.SearchQueryFields | papis/arxiv.py:59-62 | The `key:value` segment of every set field occurs in the query string, and the fields whose segments are joined are exactly the set ones |
| Arxiv.Fields | papis/arxiv.py:47-57 | The nine query fields with their API prefixes in dictionary order, the prefixes all distinct |
| Arxiv.Segment | papis/arxiv.py:61 | `key + ':' + value` |
| Arxiv.DecodeAscii | papis/arxiv.py:136 | Decoding with errors ignored yields only ASCII characters and never more characters than bytes (`DecodeAsciiAppend` and `DecodeAsciiByte` fix the value) |
| Arxiv.DecodeAsciiAppend | papis/arxiv.py:136 | Decoding a line is decoding its parts, so the ASCII bytes of a mixed line are kept in order |
| Arxiv.DecodeAsciiByte | papis/arxiv.py:136 | One byte decodes to its character when it is ASCII and to nothing otherwise |
| Arxiv.DecodeEncode | papis/arxiv.py:136 | Decoding the bytes of an ASCII text gives the text back |
| Arxiv.Examined | papis/arxiv.py:134-143 | All lines are read without a limit; with limit n the loop reads up to and including the line whose index is the first above n, or every line when the file ends first |
| Arxiv.ScanLines | papis/arxiv.py:133-143 | The result is the hit of the first line with one among the lines read; None means no line read has a hit |
| Arxiv.PdfToArxivId | papis/arxiv.py:118-143 | Like `ScanLines` with the identifier search on each decoded line, and the result is a well-formed identifier |
| Arxiv.NewDownloader | papis/arxiv.py:225-228 | A new downloader has the URL as its uri and no identifier |
| Arxiv.MatchUrl | papis/arxiv.py:231-239 | A downloader exactly when the URL holds an identifier, pointing at that identifier's abstract page and holding it |
| Arxiv.GetIdentifier | papis/arxiv.py:241-247 | A known identifier is returned unchanged; an unknown one is looked up in the uri and stored |
| Arxiv.GetIdentifierIdempotent | papis/arxiv.py:241-247 | A second lookup changes neither the downloader nor the result |
| Arxiv.GetBibtexUrl | papis/arxiv.py:249-251 | The bibtex "url" is the identifier: the stored one, or the one found in the uri when none is stored |
| Arxiv.GetDocumentUrl | papis/arxiv.py:261-266 | The PDF address is the PDF prefix, the identifier as `str` writes it, and ".pdf" |
| Arxiv.AbsUrlId | papis/arxiv.py:234 | The identifier of an abstract-page URL is found again in it |
| Arxiv.MatchRoundTrip | papis/arxiv.py:231-247 | The identifier found in a matched downloader's uri is the one it stores |
| Arxiv.MatchedDocumentUrl | papis/arxiv.py:261-266 | A matched downloader keeps its identifier and points at that identifier's PDF |

## Left out

- Network access and HTML parsing in `get_data` (papis/arxiv.py:64-100) are not modelled. Only the query string it sends is.
- URL encoding and the `start`/`max_results` parameters of the request are not modelled.
- `validate_arxivid`, `download_bibtex` and the `arxiv2bib` client are left out. They are network calls.
- The `Importer` and `ArxividFromPdfImporter` classes and the click command are left out. They are glue around the modelled functions.
- Logging calls are left out. They have no effect on results.
- Concurrency is left out. The formatter cache is a module global with no lock or initialisation guard (papis/format.py:12, 139-152); the model assumes calls happen one after another.
- Formatters.PythonFormat: `str.format` and its mini-language are the `Renderer` parameter. The engine's output is not modelled, only how the formatter binds and handles it. The copy into a fresh `Document` is not modelled because it changes no field.
- Formatters.Jinja2Format: the Jinja2 engine is a `Renderer` parameter. A failed import is `None`.
- Formatters.GetFormatter: the plugin manager is a map from names to formatters. `plugin()` construction is not modelled.
- Formatters.CustomFormat: a `year` given as a list or number is reported as `WrongType`. Python would slice a list instead.
- Formatters.CustomFormat: a field whose value is Python `None` is not modelled. Values are strings, numbers or author lists.
- Text.LowerChar: every non-ASCII character except U+0130 and U+212A is kept as it is, not lower-cased. Every later step deletes all non-ASCII characters, so keys are exact.
- Text.Capitalize: only ASCII letters change case. It is applied only to `[0-9a-z]` words here, where this is exact.
- Arxiv.PdfToArxivId: opening and reading the file is not modelled. The lines are an input, split as binary line iteration splits them.
- Arxiv.Examined: `maxlines` is `math.inf` (Unlimited) or an integer. Fractional values are not modelled.
- Arxiv.SearchQuery: an unset argument is written as "". `get_data` defaults every argument to "", and the `None` the click options default to (papis/arxiv.py:177-185) is equally falsy.
- Arxiv.GetDocumentUrl: `str.format` of `None` is modelled as the text "None". No other non-string identifiers occur.
- ArxivId.FindArxivId: only the case folding that affects the letters of the pattern is modelled: ASCII case, "i" with U+0130 and U+0131, "s" with U+017F. The optional trailing group `("|'|\))?` is omitted because it never changes the identifier group.

## Findings

| source | as written | input that shows it | evidently intended | confidence | as-written member | corrected member |
|---|---|---|---|---|---|---|
| papis/format.py:120 | `re.sub` is called but `re` is never imported in the module, so the "custom_ref" branch raises NameError | template "custom_ref" with any document, such as author "Müller", year "2023", title "The Theory of Everything" | `import re`, so the branch builds the key | not executed | Formatters.AsWrittenNeverBuildsKey | Formatters.CustomFormat |
| papis/format.py:125 | the filter lambda reads the bare name `SKIP_WORDS`, which is a class attribute and not in scope there, so it raises NameError on the first word | title "characterization" (once `re` is imported) | `CustomFormater.SKIP_WORDS` or `self.SKIP_WORDS` | not executed | Formatters.SkipWordsAsWrittenFails | CiteKey.TitleWords |

=== FILE: arxiv.dfy ===
/** The string logic of `papis/arxiv.py` around the identifier scanner: the
    `search_query` parameter `get_data` sends to the arXiv API, the line loop
    of `pdf_to_arxivid`, and the URLs of the arXiv `Downloader`. */
module Arxiv {
  import opened Wrappers
  import opened Text
  import opened ArxivId

  // ---------------------------------------------------------------------
  // The search query of `get_data`
  // ---------------------------------------------------------------------

  /** The keyword arguments of `get_data` that go into the search query. An
      argument left unset (`None` from the command line) is as falsy as the
      empty string and is written as `""`. */
  datatype SearchParams = SearchParams(
    query: string, author: string, title: string, abstractText: string,
    comment: string, journal: string, reportNumber: string,
    category: string, idList: string)

  /** The query dictionary: the API's field prefix for each argument, in the
      order the dictionary literal lists them. */
  function Fields(q: SearchParams): (fs: seq<(string, string)>)
    ensures |fs| == 9
    ensures forall i, j :: 0 <= i < j < |fs| ==> fs[i].0 != fs[j].0
  {
    [("all", q.query), ("ti", q.title), ("au", q.author), ("cat", q.category),
     ("abs", q.abstractText), ("co", q.comment), ("jr", q.journal),
     ("id_list", q.idList), ("rn", q.reportNumber)]
  }

  /** A field that survives the truthiness filter. */
  predicate IsSet(kv: (string, string)) {
    kv.1 != []
  }

  /** One `key:value` segment. */
  function Segment(kv: (string, string)): string {
    kv.0 + ":" + kv.1
  }

  function Segments(kvs: seq<(string, string)>): seq<string> {
    seq(|kvs|, i requires 0 <= i < |kvs| => Segment(kvs[i]))
  }

  /** `search_query`: the set fields as `key:value`, joined by `+AND+`. It is
      empty exactly when every argument is. */
  function SearchQuery(q: SearchParams): (r: string)
    ensures r == [] <==> forall k :: 0 <= k < 9 ==> !IsSet(Fields(q)[k])
  {
    var kept := Keep(Fields(q), IsSet);
    var r := Join("+AND+", Segments(kept));
    assert kept != [] ==> Segment(kept[0]) <= r;
    assert kept == [] <==> forall k :: 0 <= k < 9 ==> !IsSet(Fields(q)[k]) by {
      KeepCounts(Fields(q), IsSet);
      if kept != [] {
        assert kept[0] in multiset(Fields(q));
      } else {
        forall k | 0 <= k < 9
          ensures !IsSet(Fields(q)[k])
        {
          assert Fields(q)[k] in multiset(Fields(q));
        }
      }
    }
    r
  }

  /** The query written as a loop over the fields would write it: each set
      field adds its segment, with `+AND+` before every segment but the
      first of the query. */
  function Assemble(kvs: seq<(string, string)>): string {
    if kvs == [] then []
    else
      var rest := Assemble(kvs[1..]);
      if !IsSet(kvs[0]) then rest
      else if rest == [] then Segment(kvs[0])
      else Segment(kvs[0]) + "+AND+" + rest
  }

  lemma {:induction false} JoinKeptIsAssemble(kvs: seq<(string, string)>)
    ensures Join("+AND+", Segments(Keep(kvs, IsSet))) == Assemble(kvs)
  {
    if kvs != [] {
      JoinKeptIsAssemble(kvs[1..]);
      var rest := Keep(kvs[1..], IsSet);
      var segs := Segments(rest);
      assert segs != [] ==> Segment(rest[0]) <= Join("+AND+", segs);
      if IsSet(kvs[0]) {
        assert Keep(kvs, IsSet) == [kvs[0]] + rest;
        var all := Segments([kvs[0]] + rest);
        assert all == [Segment(kvs[0])] + segs;
        if segs != [] {
          assert all[1..] == segs;
        }
      }
    }
  }

  /** The query holds exactly the set fields, in dictionary order, as the
      field-by-field construction does. */
  lemma SearchQueryAssembles(q: SearchParams)
    ensures SearchQuery(q) == Assemble(Fields(q))
  {
    JoinKeptIsAssemble(Fields(q));
  }

  /** The `key:value` segment of every set field occurs in the query, and
      the fields whose segments are joined are exactly the set ones. */
  lemma SearchQueryFields(q: SearchParams)
    ensures forall kv :: kv in Fields(q) && IsSet(kv) ==> Occurs(Segment(kv), SearchQuery(q))
    ensures forall kv :: kv in Fields(q) && IsSet(kv) ==> kv in Keep(Fields(q), IsSet)
    ensures forall kv :: kv in Keep(Fields(q), IsSet) ==> kv in Fields(q) && IsSet(kv)
  {
    var kept := Keep(Fields(q), IsSet);
    KeepMembers(Fields(q), IsSet);
    assert SearchQuery(q) == Join("+AND+", Segments(kept));
    forall kv | kv in Fields(q) && IsSet(kv)
      ensures Occurs(Segment(kv), SearchQuery(q))
    {
      var i :| 0 <= i < |kept| && kept[i] == kv;
      JoinOccurs("+AND+", Segments(kept), i);
    }
  }

  // ---------------------------------------------------------------------
  // `pdf_to_arxivid`
  // ---------------------------------------------------------------------

  newtype byte = x: int | 0 <= x < 256

  predicate IsAsciiByte(b: byte) {
    b < 128
  }

  /** `line.decode('ascii', errors='ignore')`: bytes above 127 are dropped,
      the others become the character with that code. */
  function DecodeAscii(bs: seq<byte>): (s: string)
    ensures forall k :: 0 <= k < |s| ==> s[k] as int < 128
    ensures |s| <= |bs|
  {
    var kept := Keep(bs, IsAsciiByte);
    seq(|kept|, k requires 0 <= k < |kept| => kept[k] as int as char)
  }

  /** The bytes of an ASCII string. */
  function EncodeAscii(s: string): seq<byte>
    requires forall k :: 0 <= k < |s| ==> s[k] as int < 128
  {
    seq(|s|, k requires 0 <= k < |s| => s[k] as int as byte)
  }

  /** Decoding a line is decoding its parts: the ASCII bytes of a line are
      kept in order, whatever lies between them. */
  lemma DecodeAsciiAppend(a: seq<byte>, b: seq<byte>)
    ensures DecodeAscii(a + b) == DecodeAscii(a) + DecodeAscii(b)
  {
    KeepAppend(a, b, IsAsciiByte);
  }

  /** One byte decodes to its character when it is ASCII and is dropped
      otherwise (`errors='ignore'`). */
  lemma DecodeAsciiByte(b: byte)
    ensures DecodeAscii([b]) == if b < 128 then [b as int as char] else []
  {
    assert [b][1..] == [];
  }

  /** Decoding gives back every ASCII text. */
  lemma DecodeEncode(s: string)
    requires forall k :: 0 <= k < |s| ==> s[k] as int < 128
    ensures DecodeAscii(EncodeAscii(s)) == s
  {
    KeepAll(EncodeAscii(s), IsAsciiByte);
  }

  /** The `maxlines` argument: unbounded (`math.inf`, the default) or a
      number of lines. */
  datatype Limit = Unlimited | AtMost(n: int)

  /** How many lines of `count` the loop reads: every line when unbounded;
      otherwise it stops after the line whose index `j` is the first with
      `j > n`, or at the end of the file. */
  function Examined(count: nat, limit: Limit): (e: nat)
    ensures e <= count
    ensures limit.Unlimited? ==> e == count
    ensures limit.AtMost? && count > 0 ==> 1 <= e
    ensures limit.AtMost? && limit.n >= -1 ==> e <= limit.n + 2
    ensures limit.AtMost? && e < count ==> 1 <= e && e - 1 > limit.n && (e == 1 || e - 2 <= limit.n)
    ensures limit.AtMost? && e == count && count >= 2 ==> count - 2 <= limit.n
  {
    match limit
    case Unlimited => count
    case AtMost(n) =>
      var last := if n + 1 < 0 then 0 else n + 1;
      if count < last + 1 then count else last + 1
  }

  /** The identifier `find_arxivid_in_text` finds on one line. */
  function LineId(line: seq<byte>): Option<string> {
    FindArxivId(DecodeAscii(line))
  }

  /** No line before `m` has a hit. */
  predicate NoHitBefore<T>(lines: seq<T>, m: nat, find: T -> Option<string>)
    requires m <= |lines|
  {
    forall k :: 0 <= k < m ==> find(lines[k]).None?
  }

  /** The loop of `pdf_to_arxivid` for any per-line search `find`: the hit
      of the first line that has one among the lines read, otherwise
      `None`. The loop stops on any `Some`, where the source's `if arxivid:`
      would pass over an empty string; `LineId` never returns `Some("")`,
      since an identifier is non-empty (`IsArxivId`), so the two agree. */
  method ScanLines<T>(lines: seq<T>, limit: Limit, find: T -> Option<string>) returns (r: Option<string>)
    ensures r.Some? ==> exists j :: 0 <= j < Examined(|lines|, limit)
                                    && find(lines[j]) == r && NoHitBefore(lines, j, find)
    ensures r.None? ==> NoHitBefore(lines, Examined(|lines|, limit), find)
  {
    var j := 0;
    while j < |lines|
      invariant j <= Examined(|lines|, limit)
      invariant limit.AtMost? ==> j <= (if limit.n + 1 < 0 then 0 else limit.n + 1)
      invariant NoHitBefore(lines, j, find)
    {
      var id := find(lines[j]);
      if id.Some? {
        return id;
      }
      if limit.AtMost? && j > limit.n {
        return None;
      }
      j := j + 1;
    }
    return None;
  }

  /** `pdf_to_arxivid` over the lines of the file, each line as read in
      binary mode. */
  method PdfToArxivId(lines: seq<seq<byte>>, limit: Limit) returns (r: Option<string>)
    ensures r.Some? ==> exists j :: 0 <= j < Examined(|lines|, limit)
                                    && LineId(lines[j]) == r && NoHitBefore(lines, j, LineId)
    ensures r.None? ==> NoHitBefore(lines, Examined(|lines|, limit), LineId)
    ensures r.Some? ==> IsArxivId(r.value)
  {
    r := ScanLines(lines, limit, LineId);
  }

  // ---------------------------------------------------------------------
  // The arXiv `Downloader`
  // ---------------------------------------------------------------------

  const AbsPrefix := "https://arxiv.org/abs/"
  const PdfPrefix := "https://arxiv.org/pdf/"

  /** The state of a downloader this model needs: its uri and the stored
      identifier (`None` until one is known). */
  datatype Downloader = Downloader(uri: string, arxivid: Option<string>)

  /** `Downloader(url)`. */
  function NewDownloader(url: string): (d: Downloader)
    ensures d.uri == url && d.arxivid.None?
  {
    Downloader(url, None)
  }

  /** `Downloader.match`: a downloader for the abstract page of the
      identifier found in `url`, holding that identifier; `None` stands for
      the `False` it returns otherwise. */
  function MatchUrl(url: string): (r: Option<Downloader>)
    ensures r.None? <==> FindArxivId(url).None?
    ensures r.Some? ==> r.value.uri == AbsPrefix + FindArxivId(url).value
    ensures r.Some? ==> r.value.arxivid == FindArxivId(url)
  {
    match FindArxivId(url)
    case None => None
    case Some(id) => Some(NewDownloader(AbsPrefix + id).(arxivid := Some(id)))
  }

  /** The identifier is missing or empty, so `not self.arxivid` holds. */
  predicate Unknown(d: Downloader) {
    d.arxivid.None? || d.arxivid.value == []
  }

  /** `_get_identifier`: the stored identifier, looked up in the uri first
      when it is unknown. Returns the updated downloader and the identifier. */
  function GetIdentifier(d: Downloader): (r: (Downloader, Option<string>))
    ensures r.1 == r.0.arxivid && r.0.uri == d.uri
    ensures !Unknown(d) ==> r.0 == d
    ensures Unknown(d) ==> r.1 == FindArxivId(d.uri)
  {
    if Unknown(d) then
      var d' := d.(arxivid := FindArxivId(d.uri));
      (d', d'.arxivid)
    else
      (d, d.arxivid)
  }

  /** A second lookup changes nothing: once the identifier is stored it is
      returned unchanged, and a failed lookup fails again. */
  lemma GetIdentifierIdempotent(d: Downloader)
    ensures GetIdentifier(GetIdentifier(d).0) == GetIdentifier(d)
  {
    var d' := GetIdentifier(d).0;
    if Unknown(d) && d'.arxivid.Some? {
      assert IsArxivId(d'.arxivid.value);
    }
  }

  /** `get_bibtex_url`: the identifier itself, which `arxiv2bib` accepts in
      place of an address. */
  function GetBibtexUrl(d: Downloader): (r: (Downloader, Option<string>))
    ensures r.1 == r.0.arxivid && r.0.uri == d.uri
    ensures !Unknown(d) ==> r.1 == d.arxivid
    ensures Unknown(d) ==> r.1 == FindArxivId(d.uri)
  {
    GetIdentifier(d)
  }

  /** `str(x)` of an optional identifier, as `str.format` writes it. */
  function Show(id: Option<string>): string {
    match id
    case None => "None"
    case Some(s) => s
  }

  /** `get_document_url`: the PDF address of the identifier. */
  function GetDocumentUrl(d: Downloader): (r: (Downloader, string))
    ensures r.0 == GetIdentifier(d).0
    ensures r.1 == PdfPrefix + Show(r.0.arxivid) + ".pdf"
  {
    var (d', id) := GetIdentifier(d);
    (d', PdfPrefix + Show(id) + ".pdf")
  }

  /** The pattern literal matches wherever the text holds it exactly. */
  lemma LiteralExact(t: string, k: nat, w: string)
    requires k + |w| <= |t| && forall m :: 0 <= m < |w| ==> t[k + m] == w[m]
    ensures LiteralAt(t, k, w)
  {
    LiteralFromExact(t, k, w, 0);
  }

  lemma {:induction false} LiteralFromExact(t: string, k: nat, w: string, j: nat)
    requires k + |w| <= |t| && j <= |w|
    requires forall m :: j <= m < |w| ==> t[k + m] == w[m]
    ensures LiteralFrom(t, k, w, j)
    decreases |w| - j
  {
    if j < |w| {
      LiteralFromExact(t, k, w, j + 1);
    }
  }

  /** No match starts inside the scheme of an arXiv URL. */
  lemma NoMatchInScheme(t: string)
    requires AbsPrefix <= t
    ensures forall j, p :: 0 <= j < 8 ==> !IsPath(t, j, p)
  {
    forall j | 0 <= j < 8
      ensures !LiteralAt(t, j, "arxiv")
    {
      assert t[j] == AbsPrefix[j];
    }
  }

  /** The path an abstract-page URL matches along: host `.org`, section
      `/abs`, separator `/`, and the whole identifier. */
  function AbsPath(id: string): Path {
    Path(Org, Abs, 21, 22, false, 22 + |id|)
  }

  /** The text after the scheme of an abstract-page URL matches
      `arxiv.org/abs`. */
  lemma AbsPrefixMatches(t: string)
    requires AbsPrefix <= t
    ensures LiteralAt(t, 8, "arxiv") && HostFits(t, 13, Org) && SectionFits(t, 17, Abs)
  {
    assert forall m :: 0 <= m < |AbsPrefix| ==> t[m] == AbsPrefix[m];
    LiteralExact(t, 8, "arxiv");
    LiteralExact(t, 14, "org");
    LiteralExact(t, 17, "/abs");
    assert t[13] == '.';
  }

  /** After `arxiv.org/abs` comes the separator `/` and then the
      identifier, to the end of the URL. */
  lemma AbsTailMatches(id: string)
    requires IsArxivId(id)
    ensures TailFits(AbsPrefix + id, 21, AbsPath(id))
  {
    var t := AbsPrefix + id;
    assert t[21] == '/';
    assert forall k :: 22 <= k < |t| ==> t[k] == id[k - 22];
  }

  lemma AbsPathMatches(id: string)
    requires IsArxivId(id)
    ensures IsPath(AbsPrefix + id, 8, AbsPath(id))
  {
    AbsPrefixMatches(AbsPrefix + id);
    AbsTailMatches(id);
    assert TailStart(8, AbsPath(id)) == 21;
  }

  /** Every other path at the same position comes later in engine order. */
  lemma AbsPathFirst(id: string, q: Path)
    requires IsArxivId(id) && IsPath(AbsPrefix + id, 8, q)
    ensures !Precedes(q, AbsPath(id))
  {
    var t := AbsPrefix + id;
    var p := AbsPath(id);
    AbsPathMatches(id);
    if q.host == Org && q.section == Abs {
      TailForced(t, 21, q);
      TailForced(t, 21, p);
    }
  }

  /** The first match in an abstract-page URL is `AbsPath` at the "arxiv"
      of the host name. */
  lemma AbsSearch(id: string)
    requires IsArxivId(id)
    ensures Search(AbsPrefix + id, 0) == Some(Found(8, AbsPath(id)))
  {
    var t := AbsPrefix + id;
    NoMatchInScheme(t);
    AbsPathMatches(id);
    SearchLeftmost(t, 0);
    assert Search(t, 0).Some?;
    var f := Search(t, 0).value;
    assert IsPath(t, f.start, f.path);
    assert !NoPathAt(t, 8);
    assert f.start == 8;
    MatchAtFirst(t, 8);
    AbsPathFirst(id, f.path);
  }

  /** The identifier group of that match is the identifier. */
  lemma AbsGroup(id: string)
    requires IsArxivId(id) && IsPath(AbsPrefix + id, 8, AbsPath(id))
    ensures Group(AbsPrefix + id, 8, AbsPath(id)) == id
  {
    assert (AbsPrefix + id)[22..] == id;
  }

  /** The identifier of an abstract-page URL is found again in it. */
  lemma AbsUrlId(id: string)
    requires IsArxivId(id)
    ensures FindArxivId(AbsPrefix + id) == Some(id)
  {
    AbsSearch(id);
    AbsPathMatches(id);
    AbsGroup(id);
  }

  /** A matched downloader's uri holds its identifier: looking it up there
      again gives the same identifier. */
  lemma MatchRoundTrip(url: string)
    ensures MatchUrl(url).Some? ==> FindArxivId(MatchUrl(url).value.uri) == MatchUrl(url).value.arxivid
  {
    if MatchUrl(url).Some? {
      AbsUrlId(FindArxivId(url).value);
    }
  }

  /** A matched downloader keeps its identifier and points at that
      identifier's PDF. */
  lemma MatchedDocumentUrl(url: string)
    ensures MatchUrl(url).Some? ==> GetIdentifier(MatchUrl(url).value) == (MatchUrl(url).value, FindArxivId(url))
    ensures MatchUrl(url).Some? ==> GetDocumentUrl(MatchUrl(url).value).1 == PdfPrefix + FindArxivId(url).value + ".pdf"
  {
  }
}

=== FILE: arxiv_id.dfy ===
/** `find_arxivid_in_text` of `papis/arxiv.py`: the first match of the
    case-insensitive pattern

      arxiv(.org|.com)?(/abs|/pdf)?\s*(=|:|/|\()\s*("|')?(?P<arxivid>[^F]+)("|'|\))?

    where F is the class of forbidden identifier characters, and the text of
    its `arxivid` group.

    A match is described by a `Path`: the choices the regular expression
    engine makes for the two optional groups, the end of each whitespace
    run, whether the opening quote is taken, and where the identifier stops.
    `IsPath` says which paths match at a position; `Precedes` is the order in
    which a backtracking engine tries them. `MatchAt` is proved to return
    the first matching path in that order, and `Search` the first position
    with a match, which together is what `re.finditer(...)` yields first.
    The trailing group `("|'|\))?` always succeeds and lies outside the
    identifier group, so it is not part of a path. */
module ArxivId {
  import opened Wrappers
  import opened Text

  /** The characters the identifier group excludes: `"`, `(`, `)`,
      whitespace, `%`, `!`, `$`, `^`, `'`, `<`, `>`, `@`, `,`, `;`, `:`,
      `#`, `?`, `&`. */
  predicate IsForbidden(c: char) {
    || c == '"' || c == '(' || c == ')' || IsSpace(c) || c == '%' || c == '!'
    || c == '$' || c == '^' || c == '\'' || c == '<' || c == '>' || c == '@'
    || c == ',' || c == ';' || c == ':' || c == '#' || c == '?' || c == '&'
  }

  predicate IsIdChar(c: char) {
    !IsForbidden(c)
  }

  /** `(=|:|/|\()`. */
  predicate IsSeparator(c: char) {
    c == '=' || c == ':' || c == '/' || c == '('
  }

  /** `("|')`. */
  predicate IsQuote(c: char) {
    c == '"' || c == '\''
  }

  /** Text character `c` matches pattern character `lit` under `re.I`: ASCII
      letters match either case, and Python's regular expression engine also
      lets "i" match U+0130 and U+0131 and "s" match U+017F. */
  predicate Folds(c: char, lit: char) {
    || c == lit
    || (IsAsciiLower(lit) && c as int == lit as int - 32)
    || (lit == 'i' && (c == '\U{130}' || c == '\U{131}'))
    || (lit == 's' && c == '\U{17F}')
  }

  /** The pattern literal `w` matches case-insensitively at `k`. */
  predicate LiteralAt(t: string, k: nat, w: string) {
    k + |w| <= |t| && LiteralFrom(t, k, w, 0)
  }

  /** The characters of `w` from index `j` on match in `t` from `k + j`. */
  predicate LiteralFrom(t: string, k: nat, w: string, j: nat)
    requires k + |w| <= |t|
    decreases |w| - j
  {
    j >= |w| || (Folds(t[k + j], w[j]) && LiteralFrom(t, k, w, j + 1))
  }

  /** The alternatives of `(.org|.com)?`, in the order they are tried. */
  datatype Host = Org | Com | NoHost

  /** The alternatives of `(/abs|/pdf)?`, in the order they are tried. */
  datatype Section = Abs | Pdf | NoSection

  function HostLen(h: Host): nat {
    if h == NoHost then 0 else 4
  }

  function SectionLen(s: Section): nat {
    if s == NoSection then 0 else 4
  }

  function HostRank(h: Host): nat {
    match h
    case Org => 0
    case Com => 1
    case NoHost => 2
  }

  function SectionRank(s: Section): nat {
    match s
    case Abs => 0
    case Pdf => 1
    case NoSection => 2
  }

  /** `h` matches at `k`; the `.` is unescaped, so it stands for any
      character but a newline. */
  predicate HostFits(t: string, k: nat, h: Host) {
    match h
    case NoHost => true
    case Org => k + 4 <= |t| && t[k] != '\n' && LiteralAt(t, k + 1, "org")
    case Com => k + 4 <= |t| && t[k] != '\n' && LiteralAt(t, k + 1, "com")
  }

  predicate SectionFits(t: string, k: nat, s: Section) {
    match s
    case NoSection => true
    case Abs => LiteralAt(t, k, "/abs")
    case Pdf => LiteralAt(t, k, "/pdf")
  }

  /** One way through the pattern: the optional groups taken, the index of
      the separator (the first `\s*` ends there), the end of the second
      `\s*`, whether the quote is taken, and the end of the identifier. */
  datatype Path = Path(host: Host, section: Section, sep: nat, open: nat, quoted: bool, stop: nat)

  /** Start of the identifier group. */
  function IdStart(p: Path): nat {
    if p.quoted then p.open + 1 else p.open
  }

  predicate AllSpace(t: string, a: nat, b: nat) {
    a <= b <= |t| && forall k :: a <= k < b ==> IsSpace(t[k])
  }

  predicate AllIdChars(t: string, a: nat, b: nat) {
    a <= b <= |t| && forall k :: a <= k < b ==> IsIdChar(t[k])
  }

  /** `\s*(=|:|/|\()\s*("|')?(?P<arxivid>[^F]+)` matches from `w` along `p`. */
  predicate TailFits(t: string, w: nat, p: Path) {
    && w <= p.sep < |t|
    && AllSpace(t, w, p.sep)
    && IsSeparator(t[p.sep])
    && AllSpace(t, p.sep + 1, p.open)
    && (p.quoted ==> p.open < |t| && IsQuote(t[p.open]))
    && IdStart(p) < p.stop
    && AllIdChars(t, IdStart(p), p.stop)
  }

  /** Where the tail of the pattern starts for a match at `i` along `p`. */
  function TailStart(i: nat, p: Path): nat {
    i + 5 + HostLen(p.host) + SectionLen(p.section)
  }

  /** The whole pattern matches at `i` along `p`. */
  predicate IsPath(t: string, i: nat, p: Path) {
    && LiteralAt(t, i, "arxiv")
    && HostFits(t, i + 5, p.host)
    && SectionFits(t, i + 5 + HostLen(p.host), p.section)
    && TailFits(t, TailStart(i, p), p)
  }

  /** A backtracking engine tries path `a` before path `b`: the groups'
      alternatives in pattern order, then the greedy `\s*` runs longest
      first, the optional quote taken first, and the greedy identifier
      longest first. */
  predicate Precedes(a: Path, b: Path) {
    || HostRank(a.host) < HostRank(b.host)
    || (&& a.host == b.host
        && (|| SectionRank(a.section) < SectionRank(b.section)
            || (&& a.section == b.section
                && (|| a.sep > b.sep
                    || (&& a.sep == b.sep
                        && (|| a.open > b.open
                            || (&& a.open == b.open
                                && (|| (a.quoted && !b.quoted)
                                    || (a.quoted == b.quoted && a.stop > b.stop)))))))))
  }

  /** `Precedes` is a strict total order on paths, so among the paths that
      match at a position there is exactly one the engine reaches first. */
  lemma PrecedesIsStrictTotal(a: Path, b: Path, c: Path)
    ensures !Precedes(a, a)
    ensures Precedes(a, b) && Precedes(b, c) ==> Precedes(a, c)
    ensures a != b ==> Precedes(a, b) || Precedes(b, a)
  {
  }

  /** In a tail match the whitespace runs, the quote and (up to its length)
      the identifier are forced: only the identifier's end can vary, and not
      beyond the end of the run of identifier characters. */
  lemma TailForced(t: string, w: nat, p: Path)
    requires TailFits(t, w, p)
    ensures p.sep == Span(t, w, IsSpace)
    ensures p.open == Span(t, p.sep + 1, IsSpace)
    ensures p.quoted == (p.open < |t| && IsQuote(t[p.open]))
    ensures p.stop <= Span(t, IdStart(p), IsIdChar)
  {
    SpanExact(t, w, IsSpace, p.sep);
    assert IsIdChar(t[IdStart(p)]);
    assert p.open < |t| && !IsSpace(t[p.open]);
    SpanExact(t, p.sep + 1, IsSpace, p.open);
    SpanAtLeast(t, IdStart(p), IsIdChar, p.stop);
  }

  /** The tail of the pattern from `w`, for the groups `h` and `s` already
      matched: the greedy `\s*` consumes whitespace one character at a
      time, then come the separator, the second `\s*`, the optional quote
      and the greedy identifier. A tail match if there is one (`TailFirst`
      shows it is the first in engine order). */
  function MatchTail(t: string, w: nat, h: Host, s: Section): (r: Option<Path>)
    requires w <= |t|
    ensures r.Some? ==> r.value.host == h && r.value.section == s && TailFits(t, w, r.value)
    decreases |t| - w
  {
    if w < |t| && IsSpace(t[w]) then MatchTail(t, w + 1, h, s)
    else if w < |t| && IsSeparator(t[w]) then
      var o := Span(t, w + 1, IsSpace);
      SpanRun(t, w + 1, IsSpace);
      var quoted := o < |t| && IsQuote(t[o]);
      var st := if quoted then o + 1 else o;
      var e := Span(t, st, IsIdChar);
      SpanRun(t, st, IsIdChar);
      if st < e then Some(Path(h, s, w, o, quoted, e)) else None
    else
      None
  }

  /** Whenever the tail matches along some path, `MatchTail` finds a match
      that agrees with it on everything but a possibly longer identifier. */
  lemma {:induction false} TailFirst(t: string, w: nat, h: Host, s: Section, p: Path)
    requires w <= |t| && TailFits(t, w, p)
    ensures MatchTail(t, w, h, s).Some?
    ensures p.sep == MatchTail(t, w, h, s).value.sep
    ensures p.open == MatchTail(t, w, h, s).value.open
    ensures p.quoted == MatchTail(t, w, h, s).value.quoted
    ensures p.stop <= MatchTail(t, w, h, s).value.stop
    decreases |t| - w
  {
    if w < p.sep {
      assert IsSpace(t[w]);
      assert MatchTail(t, w, h, s) == MatchTail(t, w + 1, h, s);
      TailFirst(t, w + 1, h, s, p);
    } else {
      SeparatorFirst(t, h, s, p);
    }
  }

  /** `TailFirst` once the leading whitespace is consumed. */
  lemma SeparatorFirst(t: string, h: Host, s: Section, p: Path)
    requires TailFits(t, p.sep, p)
    ensures MatchTail(t, p.sep, h, s).Some?
    ensures p.open == MatchTail(t, p.sep, h, s).value.open
    ensures p.quoted == MatchTail(t, p.sep, h, s).value.quoted
    ensures p.stop <= MatchTail(t, p.sep, h, s).value.stop
  {
    TailForced(t, p.sep, p);
    assert !IsSpace(t[p.sep]) && IsSeparator(t[p.sep]);
  }

  /** The pattern from `i` with host alternative `h` and section alternative
      `s`, if it matches. */
  function MatchSection(t: string, i: nat, h: Host, s: Section): (r: Option<Path>)
    requires LiteralAt(t, i, "arxiv") && HostFits(t, i + 5, h)
    ensures r.Some? ==> r.value.host == h && r.value.section == s && IsPath(t, i, r.value)
  {
    var k := i + 5 + HostLen(h);
    if SectionFits(t, k, s) then MatchTail(t, k + SectionLen(s), h, s) else None
  }

  /** Once the groups `h` and `s` are matched, `MatchSection` is the tail
      match from where they end. */
  lemma SectionIsTail(t: string, i: nat, h: Host, s: Section)
    requires LiteralAt(t, i, "arxiv") && HostFits(t, i + 5, h) && SectionFits(t, i + 5 + HostLen(h), s)
    ensures i + 5 + HostLen(h) + SectionLen(s) <= |t|
    ensures MatchSection(t, i, h, s) == MatchTail(t, i + 5 + HostLen(h) + SectionLen(s), h, s)
  {
  }

  /** Among the paths with the same groups, `MatchSection` finds the first. */
  lemma SectionFirst(t: string, i: nat, p: Path)
    requires IsPath(t, i, p)
    ensures MatchSection(t, i, p.host, p.section).Some?
    ensures p == MatchSection(t, i, p.host, p.section).value
            || Precedes(MatchSection(t, i, p.host, p.section).value, p)
  {
    var w := TailStart(i, p);
    SectionIsTail(t, i, p.host, p.section);
    TailFirst(t, w, p.host, p.section, p);
    var r := MatchTail(t, w, p.host, p.section).value;
    assert r == p.(stop := r.stop);
  }

  /** The pattern from `i` with host alternative `h`: the sections in the
      order the alternation tries them. */
  function MatchHost(t: string, i: nat, h: Host): (r: Option<Path>)
    requires LiteralAt(t, i, "arxiv")
    ensures r.Some? ==> r.value.host == h && IsPath(t, i, r.value)
  {
    if !HostFits(t, i + 5, h) then None
    else
      var a := MatchSection(t, i, h, Abs);
      if a.Some? then a
      else
        var b := MatchSection(t, i, h, Pdf);
        if b.Some? then b
        else MatchSection(t, i, h, NoSection)
  }

  /** Among the paths with the same host alternative, `MatchHost` finds the
      first. */
  lemma HostFirst(t: string, i: nat, p: Path)
    requires IsPath(t, i, p)
    ensures MatchHost(t, i, p.host).Some?
    ensures p == MatchHost(t, i, p.host).value || Precedes(MatchHost(t, i, p.host).value, p)
  {
    SectionFirst(t, i, p);
    assert HostFits(t, i + 5, p.host);
    var a := MatchSection(t, i, p.host, Abs);
    var b := MatchSection(t, i, p.host, Pdf);
    assert a.Some? ==> a.value.section == Abs && a.value.host == p.host;
    assert b.Some? ==> b.value.section == Pdf && b.value.host == p.host;
  }

  /** The match `re` finds at position `i`, if any: the hosts in the order
      the alternation tries them. */
  function MatchAt(t: string, i: nat): (r: Option<Path>)
    ensures r.Some? ==> IsPath(t, i, r.value)
  {
    if !LiteralAt(t, i, "arxiv") then None
    else
      var a := MatchHost(t, i, Org);
      if a.Some? then a
      else
        var b := MatchHost(t, i, Com);
        if b.Some? then b
        else MatchHost(t, i, NoHost)
  }

  /** `MatchAt` fails only where no path matches, and otherwise returns the
      matching path the engine reaches first. */
  lemma MatchAtFirst(t: string, i: nat)
    ensures forall p :: IsPath(t, i, p) ==>
              MatchAt(t, i).Some? && (p == MatchAt(t, i).value || Precedes(MatchAt(t, i).value, p))
  {
    forall p | IsPath(t, i, p)
      ensures MatchAt(t, i).Some? && (p == MatchAt(t, i).value || Precedes(MatchAt(t, i).value, p))
    {
      HostFirst(t, i, p);
      assert LiteralAt(t, i, "arxiv");
      var a := MatchHost(t, i, Org);
      var b := MatchHost(t, i, Com);
      assert a.Some? ==> a.value.host == Org;
      assert b.Some? ==> b.value.host == Com;
    }
  }

  /** A match and the position it starts at. */
  datatype Found = Found(start: nat, path: Path)

  /** The positions from `from` on, in the order `re.finditer` tries them:
      the first where `MatchAt` succeeds, with its match (`SearchLeftmost`
      shows it is the leftmost match). */
  function Search(t: string, from: nat): (r: Option<Found>)
    ensures r.Some? ==> from <= r.value.start < |t| && MatchAt(t, r.value.start) == Some(r.value.path)
    decreases |t| - from
  {
    if from >= |t| then None
    else
      match MatchAt(t, from)
      case Some(p) => Some(Found(from, p))
      case None => Search(t, from + 1)
  }

  /** The pattern matches nowhere at `j`. */
  ghost predicate NoPathAt(t: string, j: nat) {
    forall p :: !IsPath(t, j, p)
  }

  /** Where `MatchAt` fails, no path matches. */
  lemma NoMatchNoPath(t: string, j: nat)
    requires MatchAt(t, j).None?
    ensures NoPathAt(t, j)
  {
    MatchAtFirst(t, j);
  }

  /** `Search` returns the leftmost match: no position between `from` and
      the one it returns matches, and it fails only when the pattern
      matches nowhere from `from` on. */
  lemma {:induction false} SearchLeftmost(t: string, from: nat)
    ensures Search(t, from).Some? ==> forall j :: from <= j < Search(t, from).value.start ==> NoPathAt(t, j)
    ensures Search(t, from).None? ==> forall j, p :: from <= j ==> !IsPath(t, j, p)
    decreases |t| - from
  {
    if from >= |t| {
      forall j | from <= j
        ensures NoPathAt(t, j)
      {
        assert !LiteralAt(t, j, "arxiv");
      }
      assert Search(t, from).None?;
    } else if MatchAt(t, from).None? {
      NoMatchNoPath(t, from);
      assert Search(t, from) == Search(t, from + 1);
      SearchLeftmost(t, from + 1);
      if Search(t, from).Some? {
        var s := Search(t, from).value.start;
        assert forall j :: from < j < s ==> NoPathAt(t, j);
      }
    } else {
      assert Search(t, from).value.start == from;
    }
  }

  /** A match whose identifier could go on has a longer alternative, which
      the greedy identifier group tries first. */
  lemma LongerPath(t: string, i: nat, p: Path)
    requires IsPath(t, i, p)
    ensures p.stop < |t| && IsIdChar(t[p.stop]) ==>
              IsPath(t, i, p.(stop := p.stop + 1)) && Precedes(p.(stop := p.stop + 1), p)
  {
    var longer := p.(stop := p.stop + 1);
    assert TailStart(i, longer) == TailStart(i, p);
    assert TailFits(t, TailStart(i, p), p);
  }

  /** A possible identifier: non-empty, without forbidden characters. */
  predicate IsArxivId(id: string) {
    id != [] && forall k :: 0 <= k < |id| ==> IsIdChar(id[k])
  }

  /** `id` occurs in `t` at `s`, and the character after it is forbidden or
      the text ends there. */
  predicate MaximalRunAt(t: string, s: nat, id: string) {
    && s + |id| <= |t|
    && t[s..s + |id|] == id
    && (s + |id| == |t| || IsForbidden(t[s + |id|]))
  }

  /** The text of the `arxivid` group of a match. */
  function Group(t: string, i: nat, p: Path): (id: string)
    requires IsPath(t, i, p)
    ensures IsArxivId(id)
  {
    assert TailFits(t, TailStart(i, p), p);
    t[IdStart(p)..p.stop]
  }

  /** In the match the engine reaches first, the identifier cannot be
      extended: it is a maximal run of identifier characters. */
  lemma FirstGroupIsMaximal(t: string, i: nat, p: Path)
    requires IsPath(t, i, p)
    requires forall q :: IsPath(t, i, q) ==> q == p || Precedes(p, q)
    ensures MaximalRunAt(t, IdStart(p), Group(t, i, p))
  {
    assert TailFits(t, TailStart(i, p), p);
    LongerPath(t, i, p);
  }

  /** The match `next(re.finditer(...))` yields: the pattern matches at
      `i` along `p`, nowhere before `i`, and `p` is the path the engine
      reaches first at `i`. */
  ghost predicate FirstMatch(t: string, i: nat, p: Path) {
    && IsPath(t, i, p)
    && (forall j :: 0 <= j < i ==> NoPathAt(t, j))
    && (forall q :: IsPath(t, i, q) ==> q == p || Precedes(p, q))
  }

  /** `find_arxivid_in_text`: the `arxivid` group of the first match, or
      `None` when the pattern matches nowhere. That identifier is a maximal
      run of identifier characters where the group starts. */
  function FindArxivId(t: string): (r: Option<string>)
    ensures r.None? <==> forall i, p :: !IsPath(t, i, p)
    ensures r.Some? ==> IsArxivId(r.value)
    ensures r.Some? ==> exists i, p :: && FirstMatch(t, i, p)
                                      && r.value == Group(t, i, p)
                                      && MaximalRunAt(t, IdStart(p), r.value)
  {
    SearchLeftmost(t, 0);
    match Search(t, 0)
    case None => None
    case Some(f) =>
      assert IsPath(t, f.start, f.path);
      MatchAtFirst(t, f.start);
      FirstGroupIsMaximal(t, f.start, f.path);
      assert FirstMatch(t, f.start, f.path);
      Some(Group(t, f.start, f.path))
  }

  /** Without a case-insensitive "arxiv" in the text there is no
      identifier. */
  lemma NoArxivNoId(t: string)
    requires forall i :: !LiteralAt(t, i, "arxiv")
    ensures FindArxivId(t) == None
  {
  }
}

=== FILE: citekey.dfy ===
/** The citation key `CustomFormater` builds for the template "custom_ref",
    in the style of Zotero Better BibTeX: the first author's family name, the
    last two characters of the year, an underscore, and up to four
    capitalised title words that are not stop words.

    The source writes the stop-word test as `word not in SKIP_WORDS` and
    calls `re.sub` without importing `re`; both names are undefined where
    they are used. This module models what the code evidently means: Python's
    `re.sub` and the class attribute `CustomFormater.SKIP_WORDS`. The code as
    written is modelled in the Formatters module. */
module CiteKey {
  import opened Text

  /** The entries of `CustomFormater.SKIP_WORDS` in the order the source
      lists them ("for" appears twice); `SkipWordCount` entries in all.
      The table is a function of the index rather than one set or sequence
      literal so that a proof about one entry (`DeadSkipWord`) unfolds only
      the block of 27 entries holding it, and `InTable` walks the indices
      one at a time; `w in SKIP_WORDS` is `IsSkipWord(w)`. */
  function SkipWord(i: nat): string {
    if i < 27 then SkipWordBlock0(i)
    else if i < 54 then SkipWordBlock1(i - 27)
    else if i < 81 then SkipWordBlock2(i - 54)
    else if i < 108 then SkipWordBlock3(i - 81)
    else if i < 135 then SkipWordBlock4(i - 108)
    else ""
  }

  function SkipWordBlock0(i: nat): string {
    match i
    case 0 => "about"
    case 1 => "above"
    case 2 => "across"
    case 3 => "afore"
    case 4 => "after"
    case 5 => "against"
    case 6 => "al"
    case 7 => "along"
    case 8 => "alongside"
    case 9 => "amid"
    case 10 => "amidst"
    case 11 => "among"
    case 12 => "amongst"
    case 13 => "anenst"
    case 14 => "apropos"
    case 15 => "apud"
    case 16 => "around"
    case 17 => "as"
    case 18 => "aside"
    case 19 => "astride"
    case 20 => "at"
    case 21 => "athwart"
    case 22 => "atop"
    case 23 => "barring"
    case 24 => "before"
    case 25 => "behind"
    case 26 => "below"
    case _ => ""
  }

  function SkipWordBlock1(i: nat): string {
    match i
    case 0 => "beneath"
    case 1 => "beside"
    case 2 => "besides"
    case 3 => "between"
    case 4 => "beyond"
    case 5 => "but"
    case 6 => "by"
    case 7 => "circa"
    case 8 => "despite"
    case 9 => "down"
    case 10 => "during"
    case 11 => "et"
    case 12 => "except"
    case 13 => "for"
    case 14 => "forenenst"
    case 15 => "from"
    case 16 => "given"
    case 17 => "in"
    case 18 => "inside"
    case 19 => "into"
    case 20 => "lest"
    case 21 => "like"
    case 22 => "modulo"
    case 23 => "near"
    case 24 => "next"
    case 25 => "notwithstanding"
    case 26 => "of"
    case _ => ""
  }

  function SkipWordBlock2(i: nat): string {
    match i
    case 0 => "off"
    case 1 => "on"
    case 2 => "onto"
    case 3 => "out"
    case 4 => "over"
    case 5 => "per"
    case 6 => "plus"
    case 7 => "pro"
    case 8 => "qua"
    case 9 => "sans"
    case 10 => "since"
    case 11 => "than"
    case 12 => "through"
    case 13 => " thru"
    case 14 => "throughout"
    case 15 => "thruout"
    case 16 => "till"
    case 17 => "to"
    case 18 => "toward"
    case 19 => "towards"
    case 20 => "under"
    case 21 => "underneath"
    case 22 => "until"
    case 23 => "unto"
    case 24 => "up"
    case 25 => "upon"
    case 26 => "versus"
    case _ => ""
  }

  function SkipWordBlock3(i: nat): string {
    match i
    case 0 => "vs."
    case 1 => "v."
    case 2 => "vs"
    case 3 => "v"
    case 4 => "via"
    case 5 => "vis-\U{E0}-vis"
    case 6 => "with"
    case 7 => "within"
    case 8 => "without"
    case 9 => "according to"
    case 10 => "ahead of"
    case 11 => "apart from"
    case 12 => "as for"
    case 13 => "as of"
    case 14 => "as per"
    case 15 => "as regards"
    case 16 => "aside from"
    case 17 => "back to"
    case 18 => "because of"
    case 19 => "close to"
    case 20 => "due to"
    case 21 => "except for"
    case 22 => "far from"
    case 23 => "inside of"
    case 24 => "instead of"
    case 25 => "near to"
    case 26 => "next to"
    case _ => ""
  }

  function SkipWordBlock4(i: nat): string {
    match i
    case 0 => "on to"
    case 1 => "out from"
    case 2 => "out of"
    case 3 => "outside of"
    case 4 => "prior to"
    case 5 => "pursuant to"
    case 6 => "rather than"
    case 7 => "regardless of"
    case 8 => "such as"
    case 9 => "that of"
    case 10 => "up to"
    case 11 => "where as"
    case 12 => "or"
    case 13 => "yet"
    case 14 => "so"
    case 15 => "for"
    case 16 => "and"
    case 17 => "nor"
    case 18 => "a"
    case 19 => "an"
    case 20 => "the"
    case 21 => "de"
    case 22 => "d'"
    case 23 => "von"
    case 24 => "van"
    case 25 => "c"
    case 26 => "ca"
    case _ => ""
  }

  const SkipWordCount: nat := 135

  /** `w` is one of the entries `table(i)`, ..., `table(count - 1)`. */
  predicate InTable(w: string, table: nat -> string, count: nat, i: nat)
    decreases count - i
  {
    i < count && (w == table(i) || InTable(w, table, count, i + 1))
  }

  lemma {:induction false} InTableAt(w: string, table: nat -> string, count: nat, i: nat, k: nat)
    requires i <= k < count && table(k) == w
    ensures InTable(w, table, count, i)
    decreases k - i
  {
    if i < k {
      InTableAt(w, table, count, i + 1, k);
    }
  }

  lemma {:induction false} NotInTable(w: string, table: nat -> string, count: nat, i: nat)
    requires forall k :: i <= k < count ==> table(k) != w
    ensures !InTable(w, table, count, i)
    decreases count - i
  {
    if i < count {
      NotInTable(w, table, count, i + 1);
    }
  }

  /** `InTable` is membership among the entries from `i` on. */
  lemma {:induction false} InTableIff(w: string, table: nat -> string, count: nat, i: nat)
    ensures InTable(w, table, count, i) <==> exists k :: i <= k < count && table(k) == w
    decreases count - i
  {
    if i < count {
      InTableIff(w, table, count, i + 1);
    }
  }

  /** `w in CustomFormater.SKIP_WORDS`. */
  predicate IsSkipWord(w: string) {
    InTable(w, SkipWord, SkipWordCount, 0)
  }

  /** A word is a stop word exactly when it is one of the table's entries. */
  lemma SkipWordsAreTheTable(w: string)
    ensures IsSkipWord(w) <==> exists k: nat :: k < SkipWordCount && SkipWord(k) == w
  {
    InTableIff(w, SkipWord, SkipWordCount, 0);
  }

  /** No stop word is longer than fifteen characters. */
  lemma SkipWordsAreShort()
    ensures forall k :: |SkipWord(k)| <= 15
  {
  }

  /** A word longer than every stop word is not one. */
  lemma LongWordIsNotSkipWord(w: string)
    requires |w| > 15
    ensures !IsSkipWord(w)
  {
    SkipWordsAreShort();
    NotInTable(w, SkipWord, SkipWordCount, 0);
  }

  /** The template name that selects the citation-key algorithm. */
  const CustomRef := "custom_ref"

  /** Characters a title word may keep: `[0-9a-z]`. */
  predicate IsKeyChar(c: char) {
    IsAsciiLower(c) || IsDigit(c)
  }

  /** Characters the cleaned title keeps: `[0-9a-z ]`. */
  predicate IsTitleChar(c: char) {
    IsKeyChar(c) || c == ' '
  }

  predicate IsKeyWord(w: string) {
    forall k :: 0 <= k < |w| ==> IsKeyChar(w[k])
  }

  /** The filter of the title words: `word and word not in SKIP_WORDS`. */
  predicate Survives(w: string) {
    w != [] && !IsSkipWord(w)
  }

  /** `re.sub('[^a-z]+', '', family.lower())`. */
  function AuthorToken(family: string): (r: string)
    ensures forall k :: 0 <= k < |r| ==> IsAsciiLower(r[k])
    ensures IsSubsequence(r, Lower(family))
  {
    Keep(Lower(family), IsAsciiLower)
  }

  /** The token keeps every `[a-z]` character of the lower-cased family
      name, as often as it occurs there. */
  lemma AuthorTokenKeepsLetters(family: string)
    ensures forall c :: IsAsciiLower(c) ==> multiset(AuthorToken(family))[c] == multiset(Lower(family))[c]
  {
    KeepCounts(Lower(family), IsAsciiLower);
  }

  /** A family name written in lower-case ASCII letters is its own token. */
  lemma AuthorTokenOfLowercase(family: string)
    requires forall k :: 0 <= k < |family| ==> IsAsciiLower(family[k])
    ensures AuthorToken(family) == family
  {
    LowerIdentity(family);
    KeepAll(family, IsAsciiLower);
  }

  /** Deriving a token from a token changes nothing. */
  lemma AuthorTokenIdempotent(family: string)
    ensures AuthorToken(AuthorToken(family)) == AuthorToken(family)
  {
    AuthorTokenOfLowercase(AuthorToken(family));
  }

  /** `year[-2:]`. */
  function YearToken(year: string): (r: string)
    ensures |r| == if |year| < 2 then |year| else 2
    ensures year == year[..|year| - |r|] + r
  {
    if |year| <= 2 then year else year[|year| - 2..]
  }

  /** The title after `re.sub('-', ' ', title.lower())` and
      `re.sub('[^0-9a-z ]+', '', ...)`. */
  function CleanTitle(title: string): (r: string)
    ensures forall k :: 0 <= k < |r| ==> IsTitleChar(r[k])
    ensures IsSubsequence(r, Replace(Lower(title), '-', ' '))
  {
    Keep(Replace(Lower(title), '-', ' '), IsTitleChar)
  }

  /** Cleaning keeps every `[0-9a-z ]` character of the lower-cased title
      (hyphens already turned into spaces), as often as it occurs there. */
  lemma CleanTitleKeeps(title: string)
    ensures forall c :: IsTitleChar(c) ==>
              multiset(CleanTitle(title))[c] == multiset(Replace(Lower(title), '-', ' '))[c]
  {
    KeepCounts(Replace(Lower(title), '-', ' '), IsTitleChar);
  }

  /** The words of the cleaned title, run together, are exactly the
      `[0-9a-z]` characters of the lower-cased title in order: however many
      spaces cleaning leaves between them, splitting loses no key
      character. */
  lemma CleanTitleWords(title: string)
    ensures Concat(Words(CleanTitle(title))) == Keep(Replace(Lower(title), '-', ' '), IsKeyChar)
  {
    var s := Replace(Lower(title), '-', ' ');
    WordsConcat(CleanTitle(title));
    KeepKeep(s, IsTitleChar, IsWordChar, IsKeyChar);
  }

  /** Every word split from a cleaned title consists of `[0-9a-z]` only. */
  lemma CleanWordsAreKeyWords(title: string)
    ensures forall i :: 0 <= i < |Words(CleanTitle(title))| ==> IsKeyWord(Words(CleanTitle(title))[i])
  {
    var s := CleanTitle(title);
    var ws := Words(s);
    forall i, k | 0 <= i < |ws| && 0 <= k < |ws[i]|
      ensures IsKeyChar(ws[i][k])
    {
      assert ws[i][k] in s;
      assert IsWordChar(ws[i][k]);
    }
  }

  /** A title that is one word of `[0-9a-z]` is that word after cleaning. */
  lemma OneWordTitle(t: string)
    requires t != [] && IsKeyWord(t)
    ensures Words(CleanTitle(t)) == [t]
  {
    LowerIdentity(t);
    assert Replace(t, '-', ' ') == t;
    KeepAll(t, IsTitleChar);
    WordsJoin([t]);
  }

  /** The title words that survive the stop-word filter, in title order. */
  function TitleWords(title: string): (r: seq<string>)
    ensures forall i :: 0 <= i < |r| ==> Survives(r[i]) && IsKeyWord(r[i])
    ensures IsSubsequence(r, Words(CleanTitle(title)))
  {
    CleanWordsAreKeyWords(title);
    var ws := Words(CleanTitle(title));
    var r := Keep(ws, Survives);
    KeepCounts(ws, Survives);
    assert forall i :: 0 <= i < |r| ==> r[i] in multiset(ws);
    r
  }

  /** Every title word that is neither empty nor a stop word survives, as
      often as it occurs in the title. */
  lemma TitleWordsKeepSurvivors(title: string)
    ensures forall w :: Survives(w) ==> multiset(TitleWords(title))[w] == multiset(Words(CleanTitle(title)))[w]
  {
    KeepCounts(Words(CleanTitle(title)), Survives);
  }

  /** Filtering the surviving words a second time removes nothing. */
  lemma TitleFilterIdempotent(title: string)
    ensures Keep(TitleWords(title), Survives) == TitleWords(title)
  {
    KeepIdempotent(Words(CleanTitle(title)), Survives);
  }

  function Min(a: int, b: int): int {
    if a <= b then a else b
  }

  /** `map(str.capitalize, ws)`. */
  function Capitals(ws: seq<string>): seq<string> {
    seq(|ws|, i requires 0 <= i < |ws| => Capitalize(ws[i]))
  }

  /** Capitalising `[0-9a-z]` words only upper-cases first letters:
      lower-casing the joined result gives back the joined words, and every
      character is a key character or an ASCII capital. */
  lemma CapitalsOfKeyWords(ws: seq<string>)
    requires forall i :: 0 <= i < |ws| ==> IsKeyWord(ws[i])
    ensures Lower(Concat(Capitals(ws))) == Concat(ws)
    ensures forall k :: 0 <= k < |Concat(Capitals(ws))| ==>
              IsKeyChar(Concat(Capitals(ws))[k]) || IsAsciiUpper(Concat(Capitals(ws))[k])
  {
    var caps := Capitals(ws);
    LowerConcat(caps);
    forall i | 0 <= i < |ws|
      ensures Lower(caps[i]) == ws[i]
    {
      LowerCapitalize(ws[i]);
    }
    assert seq(|caps|, i requires 0 <= i < |caps| => Lower(caps[i])) == ws;
    forall i | 0 <= i < |caps|
      ensures forall k :: 0 <= k < |caps[i]| ==> IsKeyChar(caps[i][k]) || IsAsciiUpper(caps[i][k])
    {
      CapitalizedChars(ws[i]);
    }
    ConcatChars(caps, c => IsKeyChar(c) || IsAsciiUpper(c));
  }

  /** A capitalised `[0-9a-z]` word holds only key characters and ASCII
      capitals. */
  lemma CapitalizedChars(w: string)
    requires IsKeyWord(w)
    ensures Capitalize(w) == UpperFirst(w)
    ensures forall k :: 0 <= k < |Capitalize(w)| ==> IsKeyChar(Capitalize(w)[k]) || IsAsciiUpper(Capitalize(w)[k])
  {
    if w != [] {
      LowerIdentity(w[1..]);
      assert Capitalize(w) == [UpperAscii(w[0])] + w[1..];
    }
  }

  /** `''.join(list(map(str.capitalize, words))[:4])`: the first (at most)
      four surviving words run together, each with its first letter
      upper-cased and the rest as they are; lower-cased, it is those words
      run together, and it holds nothing but `[0-9a-zA-Z]`. */
  function TitleToken(title: string): (r: string)
    ensures var first := TitleWords(title)[..Min(4, |TitleWords(title)|)];
            r == Concat(seq(|first|, i requires 0 <= i < |first| => UpperFirst(first[i])))
    ensures Lower(r) == Concat(TitleWords(title)[..Min(4, |TitleWords(title)|)])
    ensures forall k :: 0 <= k < |r| ==> IsKeyChar(r[k]) || IsAsciiUpper(r[k])
  {
    var ws := TitleWords(title);
    var first := ws[..Min(4, |ws|)];
    CapitalsOfKeyWords(first);
    forall i | 0 <= i < |first|
      ensures Capitals(first)[i] == UpperFirst(first[i])
    {
      CapitalizedChars(first[i]);
    }
    assert Capitals(first) == seq(|first|, i requires 0 <= i < |first| => UpperFirst(first[i]));
    Concat(Capitals(first))
  }

  /** The citation key for template "custom_ref". */
  function Key(family: string, year: string, title: string): (r: string)
    ensures '_' in r
    ensures SplitAtLast(r, '_') == (AuthorToken(family) + YearToken(year), TitleToken(title))
  {
    var head := AuthorToken(family) + YearToken(year);
    var tail := TitleToken(title);
    SplitAtLastUnique(head, '_', tail);
    head + "_" + tail
  }

  /** The stop words a title word can be equal to: those made of `[0-9a-z]`
      alone. Entries with a space, punctuation or a non-ASCII letter are
      compared against single cleaned words and so never match. */
  predicate IsLiveSkipWord(w: string) {
    IsSkipWord(w) && IsKeyWord(w)
  }

  /** Filtering with the live stop words alone gives the same title words. */
  lemma OnlyLiveSkipWordsMatter(title: string)
    ensures TitleWords(title) == Keep(Words(CleanTitle(title)), w => w != [] && !IsLiveSkipWord(w))
  {
    var ws := Words(CleanTitle(title));
    CleanWordsAreKeyWords(title);
    KeepCongruent(ws, Survives, w => w != [] && !IsLiveSkipWord(w));
  }

  /** Entry `k` of the table holds a character outside `[0-9a-z]`. */
  lemma DeadSkipWord(w: string, k: nat, j: nat)
    requires k < SkipWordCount && SkipWord(k) == w
    requires j < |w| && !IsKeyChar(w[j])
    ensures IsSkipWord(w) && !IsLiveSkipWord(w)
  {
    InTableAt(w, SkipWord, SkipWordCount, 0, k);
  }

  /** Stop words with a space, which no single title word can equal. */
  lemma SpacedSkipWords()
    ensures IsSkipWord(" thru") && !IsLiveSkipWord(" thru")
    ensures IsSkipWord("according to") && !IsLiveSkipWord("according to")
  {
    DeadSkipWord(" thru", 67, 0);
    DeadSkipWord("according to", 90, 9);
  }

  /** Stop words with punctuation or a non-ASCII letter, which cleaning
      removes from every title word. */
  lemma PunctuatedSkipWords()
    ensures IsSkipWord("vs.") && !IsLiveSkipWord("vs.")
    ensures IsSkipWord("vis-\U{E0}-vis") && !IsLiveSkipWord("vis-\U{E0}-vis")
    ensures IsSkipWord("d'") && !IsLiveSkipWord("d'")
  {
    DeadSkipWord("vs.", 81, 2);
    DeadSkipWord("vis-\U{E0}-vis", 86, 3);
    DeadSkipWord("d'", 130, 1);
  }

  /** A letter outside ASCII that does not lower-case to ASCII, such as the
      "\U{FC}" of "M\U{FC}ller", is dropped from the family name: the token
      of "M\U{FC}ller" is "mller". */
  lemma {:induction false} AuthorTokenDropsNonAscii(a: string, c: char, b: string)
    requires IsLowerFixed(c) && !IsAsciiLower(c)
    ensures AuthorToken(a + [c] + b) == AuthorToken(a) + AuthorToken(b)
  {
    var la, lb := Lower(a), Lower(b);
    LowerAppend(a + [c], b);
    LowerAppend(a, [c]);
    DroppedChar(c);
    KeepAppend(la + [c], lb, IsAsciiLower);
    KeepAppend(la, [c], IsAsciiLower);
    assert AuthorToken(a + [c] + b) == Keep(la + [c] + lb, IsAsciiLower);
  }

  lemma DroppedChar(c: char)
    requires IsLowerFixed(c) && !IsAsciiLower(c)
    ensures Lower([c]) == [c] && Keep([c], IsAsciiLower) == []
  {
    assert [c][1..] == [];
  }
}

=== FILE: formatters.dfy ===
/** The formatter plugins of `papis/format.py` and the process-wide choice of
    one of them.

    A formatter turns a template and a document into a string. The Python
    and Jinja2 formatters hand the template to a template engine; both
    engines are outside this model and appear as `Renderer` functions that
    return either the rendered text or the message of the exception they
    raised. The custom formatter builds a citation key (module CiteKey) for
    the template "custom_ref" and hands every other template to the Python
    formatter. The configuration is a record of the two options read here,
    and the plugin registry is a map from plugin names to formatters. */
module Formatters {
  import opened Wrappers
  import opened Text
  import opened CiteKey

  /** A document field: a string, a number, or a list of author records. */
  datatype Value =
    | Str(text: string)
    | Num(number: int)
    | Entries(entries: seq<map<string, string>>)

  /** A papis document: field name to value. */
  type Document = map<string, Value>

  /** The exceptions a call can raise. `MissingField` stands for a KeyError
      or IndexError on a document field, `WrongType` for a TypeError or
      AttributeError on a field of the wrong kind. */
  datatype FormatError =
    | MissingField(field: string)
    | WrongType(field: string)
    | InvalidFormatterValue(registered: set<string>)
    | NameError(name: string)

  /** The configuration options read by this module. */
  datatype Config = Config(formatDocName: string, formater: string)

  /** A template engine: from the template, the name the document is bound
      to, the document and the additional bindings, it renders a string or
      fails with the message of the exception it raised. */
  type Renderer = (string, string, Document, map<string, Value>) -> Result<string, string>

  /** The formatter plugins: `PythonFormater`, `Jinja2Formater`,
      `CustomFormater`. */
  datatype Formatter = Python | Jinja2 | Custom

  /** The template engines the formatters use; `jinja2` is `None` when the
      jinja2 package could not be imported. */
  datatype Engines = Engines(python: Renderer, jinja2: Option<Renderer>)

  /** The exception message a Jinja2 formatter gives when jinja2 failed to
      import, so that `self.jinja2` was never set. */
  const MissingJinja2Message := "'Jinja2Formater' object has no attribute 'jinja2'"

  /** `doc_key or papis.config.getstring("format-doc-name")`. */
  function BindingName(docKey: string, cfg: Config): string {
    if docKey != "" then docKey else cfg.formatDocName
  }

  /** Rendering that never raises: an exception becomes its message. */
  function FailSoft(outcome: Result<string, string>): string {
    match outcome
    case Ok(text) => text
    case Err(message) => message
  }

  /** `PythonFormater.format`: the document (copied into a fresh Document,
      which changes no field) is bound under `BindingName`, and a failure of
      `str.format` is returned as its message instead of being raised. */
  function PythonFormat(render: Renderer, cfg: Config, fmt: string, doc: Document,
                        docKey: string, additional: map<string, Value>): (r: string)
    ensures var out := render(fmt, BindingName(docKey, cfg), doc, additional);
            && (out.Ok? ==> r == out.value)
            && (out.Err? ==> r == out.error)
  {
    FailSoft(render(fmt, BindingName(docKey, cfg), doc, additional))
  }

  /** A non-empty document key wins over the configured binding name: the
      configuration then has no effect on the result. */
  lemma DocKeyOverridesConfig(render: Renderer, cfg1: Config, cfg2: Config, fmt: string,
                              doc: Document, docKey: string, additional: map<string, Value>)
    requires docKey != ""
    ensures PythonFormat(render, cfg1, fmt, doc, docKey, additional)
         == PythonFormat(render, cfg2, fmt, doc, docKey, additional)
  {
  }

  /** With no document key, the document is bound under the configured
      name. */
  lemma EmptyDocKeyUsesConfig(render: Renderer, cfg: Config, fmt: string,
                              doc: Document, additional: map<string, Value>)
    ensures PythonFormat(render, cfg, fmt, doc, "", additional)
         == PythonFormat(render, cfg, fmt, doc, cfg.formatDocName, additional)
  {
  }

  /** `Jinja2Formater.format`: the same binding rule and the same failure
      handling as the Python formatter; without jinja2 the missing attribute
      is the failure. */
  function Jinja2Format(engine: Option<Renderer>, cfg: Config, fmt: string, doc: Document,
                        docKey: string, additional: map<string, Value>): (r: string)
    ensures engine.None? ==> r == MissingJinja2Message
    ensures engine.Some? ==> r == PythonFormat(engine.value, cfg, fmt, doc, docKey, additional)
  {
    match engine
    case None => MissingJinja2Message
    case Some(render) => FailSoft(render(fmt, BindingName(docKey, cfg), doc, additional))
  }

  /** `doc['author_list'][0]['family']`. */
  function FirstFamily(doc: Document): (r: Result<string, FormatError>)
    ensures r.Ok? <==> && "author_list" in doc && doc["author_list"].Entries?
                       && |doc["author_list"].entries| > 0 && "family" in doc["author_list"].entries[0]
    ensures r.Ok? ==> r.value == doc["author_list"].entries[0]["family"]
    ensures r.Err? ==> r.error.MissingField? || r.error.WrongType?
    ensures "author_list" !in doc ==> r == Err(MissingField("author_list"))
  {
    if "author_list" !in doc then Err(MissingField("author_list"))
    else
      match doc["author_list"]
      case Entries(es) =>
        if |es| == 0 then Err(MissingField("author_list"))
        else if "family" !in es[0] then Err(MissingField("family"))
        else Ok(es[0]["family"])
      case Str(s) =>
        // Indexing a string gives a character, which cannot be indexed
        // by 'family'; indexing an empty string fails first.
        if |s| == 0 then Err(MissingField("author_list")) else Err(WrongType("author_list"))
      case Num(_) => Err(WrongType("author_list"))
  }

  /** A string field, as `doc[name]` used with string methods. */
  function TextField(doc: Document, name: string): (r: Result<string, FormatError>)
    ensures name !in doc ==> r == Err(MissingField(name))
    ensures name in doc && doc[name].Str? ==> r == Ok(doc[name].text)
    ensures name in doc && !doc[name].Str? ==> r == Err(WrongType(name))
  {
    if name !in doc then Err(MissingField(name))
    else if doc[name].Str? then Ok(doc[name].text)
    else Err(WrongType(name))
  }

  /** The document has every field the citation key reads, each of the
      kind it is used as. */
  predicate HasKeyFields(doc: Document) {
    && "author_list" in doc
    && doc["author_list"].Entries?
    && |doc["author_list"].entries| > 0
    && "family" in doc["author_list"].entries[0]
    && "year" in doc && doc["year"].Str?
    && "title" in doc && doc["title"].Str?
  }

  /** `CustomFormater.format`, with `re` and `CustomFormater.SKIP_WORDS`
      resolved as intended. The template "custom_ref" yields the key built
      from the first author's family name, the year and the title, and
      fails only for a missing or ill-typed field; any other template gives
      exactly what the Python formatter gives. */
  function CustomFormat(render: Renderer, cfg: Config, fmt: string, doc: Document,
                        docKey: string, additional: map<string, Value>): (r: Result<string, FormatError>)
    ensures fmt != CustomRef ==> r == Ok(PythonFormat(render, cfg, fmt, doc, docKey, additional))
    ensures fmt == CustomRef ==> (r.Ok? <==> HasKeyFields(doc))
    ensures fmt == CustomRef && HasKeyFields(doc) ==>
              r == Ok(Key(doc["author_list"].entries[0]["family"], doc["year"].text, doc["title"].text))
    ensures r.Err? ==> r.error.MissingField? || r.error.WrongType?
  {
    if fmt == CustomRef then
      var family :- FirstFamily(doc);
      var year :- TextField(doc, "year");
      var title :- TextField(doc, "title");
      Ok(Key(family, year, title))
    else
      Ok(PythonFormat(render, cfg, fmt, doc, docKey, additional))
  }

  /** `CustomFormater.format` exactly as written: `re` is never imported, so
      the call `re.sub(...)` on the first line of the "custom_ref" branch
      raises NameError before any field is read. */
  function CustomFormatAsWritten(render: Renderer, cfg: Config, fmt: string, doc: Document,
                                 docKey: string, additional: map<string, Value>): (r: Result<string, FormatError>)
    ensures fmt == CustomRef ==> r == Err(NameError("re"))
    ensures fmt != CustomRef ==> r == CustomFormat(render, cfg, fmt, doc, docKey, additional)
  {
    if fmt == CustomRef then Err(NameError("re"))
    else Ok(PythonFormat(render, cfg, fmt, doc, docKey, additional))
  }

  /** As written, "custom_ref" fails even for a document with every field,
      where the intended formatter returns a key. */
  lemma AsWrittenNeverBuildsKey(render: Renderer, cfg: Config, doc: Document,
                                docKey: string, additional: map<string, Value>)
    requires HasKeyFields(doc)
    ensures CustomFormatAsWritten(render, cfg, CustomRef, doc, docKey, additional).Err?
    ensures CustomFormat(render, cfg, CustomRef, doc, docKey, additional).Ok?
  {
  }

  /** The stop-word filter as written, were `re` imported: the lambda tests
      `word not in SKIP_WORDS`, an undefined name, so it raises NameError as
      soon as it is applied to a word, that is, whenever the cleaned title
      has at least one word. */
  function TitleWordsAsWritten(title: string): (r: Result<seq<string>, FormatError>)
    ensures r.Ok? <==> Words(CleanTitle(title)) == []
    ensures r.Ok? ==> r.value == TitleWords(title)
  {
    var ws := Words(CleanTitle(title));
    if ws == [] then Ok([]) else Err(NameError("SKIP_WORDS"))
  }

  /** A title made of one ordinary word (lower-case `[0-9a-z]`, not a stop
      word, such as "characterization"): the filter as written fails, the intended
      filter keeps the word. */
  lemma SkipWordsAsWrittenFails(t: string)
    requires t != [] && IsKeyWord(t) && !IsSkipWord(t)
    ensures TitleWordsAsWritten(t).Err?
    ensures TitleWords(t) == [t]
  {
    OneWordTitle(t);
    assert Keep([t], Survives) == [t] by {
      assert [t][1..] == [];
    }
  }

  lemma SkipWordsAsWrittenExample()
    ensures TitleWordsAsWritten("characterization").Err?
  {
    var t := "characterization";
    assert forall k :: 0 <= k < |t| ==> IsAsciiLower(t[k]);
    LongWordIsNotSkipWord(t);
    SkipWordsAsWrittenFails(t);
  }

  /** `formater.format(...)` for the selected plugin. Only the citation key
      can fail, and only for lack of a usable field: a template that does
      not render comes back as its error message. */
  function FormatWith(f: Formatter, engines: Engines, cfg: Config, fmt: string, doc: Document,
                      docKey: string, additional: map<string, Value>): (r: Result<string, FormatError>)
    ensures r.Err? ==> f == Custom && fmt == CustomRef && !HasKeyFields(doc)
    ensures f == Python ==> r == Ok(PythonFormat(engines.python, cfg, fmt, doc, docKey, additional))
    ensures f == Jinja2 ==> r == Ok(Jinja2Format(engines.jinja2, cfg, fmt, doc, docKey, additional))
    ensures f == Custom ==> r == CustomFormat(engines.python, cfg, fmt, doc, docKey, additional)
  {
    match f
    case Python => Ok(PythonFormat(engines.python, cfg, fmt, doc, docKey, additional))
    case Jinja2 => Ok(Jinja2Format(engines.jinja2, cfg, fmt, doc, docKey, additional))
    case Custom => CustomFormat(engines.python, cfg, fmt, doc, docKey, additional)
  }

  /** The outcome of a call together with the formatter cache after it. */
  datatype Selection<T> = Selection(result: Result<T, FormatError>, cache: Option<Formatter>)

  /** `get_formater`: a cached formatter is returned without reading the
      configuration; otherwise the configured name is looked up among the
      plugins, and the formatter found is cached for good. An unknown name
      raises InvalidFormatterValue listing the registered names and leaves
      the cache empty. */
  function GetFormatter(cache: Option<Formatter>, cfg: Config, plugins: map<string, Formatter>): (r: Selection<Formatter>)
    ensures cache.Some? ==> r.result == Ok(cache.value) && r.cache == cache
    ensures cache.None? ==> (r.result.Ok? <==> cfg.formater in plugins)
    ensures r.result.Ok? ==> r.cache == Some(r.result.value)
    ensures r.result.Err? ==> r.cache == None && r.result.error == InvalidFormatterValue(plugins.Keys)
    ensures cache.None? && r.result.Ok? ==> r.result.value == plugins[cfg.formater]
  {
    match cache
    case Some(f) => Selection(Ok(f), cache)
    case None =>
      if cfg.formater in plugins then
        var f := plugins[cfg.formater];
        Selection(Ok(f), Some(f))
      else
        Selection(Err(InvalidFormatterValue(plugins.Keys)), None)
  }

  /** One call's surroundings: the configuration and the plugin registry. */
  datatype Environment = Environment(cfg: Config, plugins: map<string, Formatter>)

  /** The results of calling `get_formater` once per environment, in order,
      each call starting from the cache the previous one left. */
  function Replay(cache: Option<Formatter>, envs: seq<Environment>): (rs: seq<Result<Formatter, FormatError>>)
    ensures |rs| == |envs|
    decreases |envs|
  {
    if envs == [] then []
    else
      var s := GetFormatter(cache, envs[0].cfg, envs[0].plugins);
      [s.result] + Replay(s.cache, envs[1..])
  }

  /** Once a formatter is cached, every later call returns it, whatever the
      configuration and the registry say by then. */
  lemma {:induction false} SelectionIsSticky(f: Formatter, envs: seq<Environment>)
    ensures forall i :: 0 <= i < |envs| ==> Replay(Some(f), envs)[i] == Ok(f)
  {
    if envs != [] {
      SelectionIsSticky(f, envs[1..]);
    }
  }

  /** The first success fixes the formatter for all later calls. */
  lemma {:induction false} FirstSuccessIsFinal(envs: seq<Environment>, k: nat)
    requires k < |envs|
    requires forall i :: 0 <= i < k ==> envs[i].cfg.formater !in envs[i].plugins
    requires envs[k].cfg.formater in envs[k].plugins
    ensures forall i :: k <= i < |envs| ==> Replay(None, envs)[i] == Ok(envs[k].plugins[envs[k].cfg.formater])
    ensures forall i :: 0 <= i < k ==> Replay(None, envs)[i].Err?
  {
    if k == 0 {
      var f := envs[0].plugins[envs[0].cfg.formater];
      SelectionIsSticky(f, envs[1..]);
    } else {
      FirstSuccessIsFinal(envs[1..], k - 1);
    }
  }

  /** A failed lookup can be retried: after an unknown name, a call that
      finds its configured name registered succeeds. */
  lemma RetryAfterFailure(cfg1: Config, plugins1: map<string, Formatter>,
                          cfg2: Config, plugins2: map<string, Formatter>)
    requires cfg1.formater !in plugins1
    requires cfg2.formater in plugins2
    ensures var s1 := GetFormatter(None, cfg1, plugins1);
            && s1.result.Err?
            && GetFormatter(s1.cache, cfg2, plugins2).result == Ok(plugins2[cfg2.formater])
  {
  }

  /** The module-level `format`: select the formatter (through the cache),
      then format with it. */
  function Format(cache: Option<Formatter>, cfg: Config, plugins: map<string, Formatter>, engines: Engines,
                  fmt: string, doc: Document, docKey: string, additional: map<string, Value>): (r: Selection<string>)
    ensures r.cache == GetFormatter(cache, cfg, plugins).cache
    ensures r.cache.None? ==> r.result == Err(InvalidFormatterValue(plugins.Keys))
    ensures r.cache.Some? ==> r.result == FormatWith(r.cache.value, engines, cfg, fmt, doc, docKey, additional)
    ensures r.result.Err? && r.cache.Some? ==> r.cache == Some(Custom) && fmt == CustomRef && !HasKeyFields(doc)
  {
    var s := GetFormatter(cache, cfg, plugins);
    match s.result
    case Err(e) => Selection(Err(e), s.cache)
    case Ok(f) => Selection(FormatWith(f, engines, cfg, fmt, doc, docKey, additional), s.cache)
  }

  /** End to end: with the custom formatter selected and a document that
      has the fields the key reads, `format("custom_ref", doc)` is the
      citation key. */
  lemma CustomRefIsKey(cfg: Config, plugins: map<string, Formatter>, engines: Engines,
                       doc: Document, docKey: string, additional: map<string, Value>)
    requires HasKeyFields(doc)
    ensures Format(Some(Custom), cfg, plugins, engines, CustomRef, doc, docKey, additional).result
         == Ok(Key(doc["author_list"].entries[0]["family"], doc["year"].text, doc["title"].text))
  {
  }

  /** With the custom formatter selected, any template other than
      "custom_ref" renders exactly as the Python formatter renders it. */
  lemma CustomDelegatesToPython(cfg: Config, plugins: map<string, Formatter>, engines: Engines,
                                fmt: string, doc: Document, docKey: string, additional: map<string, Value>)
    requires fmt != CustomRef
    ensures Format(Some(Custom), cfg, plugins, engines, fmt, doc, docKey, additional).result
         == Format(Some(Python), cfg, plugins, engines, fmt, doc, docKey, additional).result
  {
  }
}

=== FILE: text.dfy ===
/** Character classes and the string primitives the formatter and the arXiv
    scanner are built from: Python's `str.lower`, `str.capitalize`,
    `str.split()`, `str.join`, and deletion of the characters outside a class
    (`re.sub('[^...]+', '', s)`). */
module Text {

  predicate IsAsciiLower(c: char) {
    'a' <= c <= 'z'
  }

  predicate IsAsciiUpper(c: char) {
    'A' <= c <= 'Z'
  }

  predicate IsDigit(c: char) {
    '0' <= c <= '9'
  }

  /** Python's whitespace for `str.split()` and for `\s` in a str pattern:
      the characters `str.isspace` accepts. */
  predicate IsSpace(c: char) {
    || ('\t' <= c <= '\r')
    || ('\U{1C}' <= c <= '\U{1F}')
    || c == ' '
    || c == '\U{85}'
    || c == '\U{A0}'
    || c == '\U{1680}'
    || ('\U{2000}' <= c <= '\U{200A}')
    || c == '\U{2028}'
    || c == '\U{2029}'
    || c == '\U{202F}'
    || c == '\U{205F}'
    || c == '\U{3000}'
  }

  /** `str.lower` on one character. ASCII capitals map to their lower-case
      letters, U+0130 (capital I with dot above) maps to "i" followed by a
      combining dot, and U+212A (Kelvin sign) maps to "k": these are the only
      characters whose lower-case form contains ASCII. Every other character
      is kept as it is; its true lower-case form is non-ASCII too, and each
      use of `Lower` in this model discards non-ASCII characters afterwards. */
  function LowerChar(c: char): (r: string)
    ensures 1 <= |r| <= 2
    ensures forall k :: 0 <= k < |r| ==> !IsAsciiUpper(r[k])
    ensures IsAsciiUpper(c) ==> r == [(c as int + 32) as char]
    ensures c == '\U{130}' ==> r == "i\U{307}"
    ensures c == '\U{212A}' ==> r == "k"
    ensures IsLowerFixed(c) ==> r == [c]
  {
    if IsAsciiUpper(c) then [(c as int + 32) as char]
    else if c == '\U{130}' then "i\U{307}"
    else if c == '\U{212A}' then "k"
    else [c]
  }

  /** The characters `LowerChar` keeps as they are. */
  predicate IsLowerFixed(c: char) {
    !IsAsciiUpper(c) && c != '\U{130}' && c != '\U{212A}'
  }

  /** `str.lower`: each character lower-cased by `LowerChar`
      (`LowerSingle`); with `LowerAppend` this fixes the result on every
      text. */
  function Lower(s: string): (r: string)
    ensures |r| >= |s|
    ensures forall k :: 0 <= k < |r| ==> !IsAsciiUpper(r[k])
  {
    if s == [] then [] else LowerChar(s[0]) + Lower(s[1..])
  }

  lemma {:induction false} LowerSingle(c: char)
    ensures Lower([c]) == LowerChar(c)
  {
    assert [c][1..] == [];
  }

  lemma {:induction false} LowerAppend(a: string, b: string)
    ensures Lower(a + b) == Lower(a) + Lower(b)
  {
    if a == [] {
      assert a + b == b;
    } else {
      assert (a + b)[1..] == a[1..] + b;
      LowerAppend(a[1..], b);
    }
  }

  /** Lower-casing leaves a string alone when it has no ASCII capital and
      neither of the two non-ASCII characters that lower-case to ASCII. */
  lemma {:induction false} LowerIdentity(s: string)
    requires forall k :: 0 <= k < |s| ==> IsLowerFixed(s[k])
    ensures Lower(s) == s
  {
    if s != [] {
      LowerIdentity(s[1..]);
    }
  }

  /** `a` can be obtained from `b` by deleting elements. */
  predicate IsSubsequence<T(==,!new)>(a: seq<T>, b: seq<T>)
    decreases |b|
  {
    || a == []
    || (&& b != []
        && (if a[0] == b[0] then IsSubsequence(a[1..], b[1..]) else IsSubsequence(a, b[1..])))
  }

  /** The elements of `s` that satisfy `p`, in their original order: a
      subsequence of `s` holding only elements that satisfy `p`
      (`KeepCounts` adds that it holds each of them as often as `s` does,
      which determines the result). */
  function Keep<T(==,!new)>(s: seq<T>, p: T -> bool): (r: seq<T>)
    ensures forall k :: 0 <= k < |r| ==> p(r[k])
    ensures IsSubsequence(r, s)
    ensures |r| <= |s|
  {
    if s == [] then []
    else
      var rest := Keep(s[1..], p);
      if p(s[0]) then
        assert ([s[0]] + rest)[1..] == rest;
        [s[0]] + rest
      else
        assert rest != [] ==> rest[0] != s[0];
        rest
  }

  /** `Keep` drops no element that satisfies `p`. */
  lemma {:induction false} KeepCounts<T(!new)>(s: seq<T>, p: T -> bool)
    ensures forall x :: p(x) ==> multiset(Keep(s, p))[x] == multiset(s)[x]
  {
    if s != [] {
      KeepCounts(s[1..], p);
      assert s == [s[0]] + s[1..];
    }
  }

  /** `Keep` keeps exactly the elements that satisfy `p`. */
  lemma {:induction false} KeepMembers<T(!new)>(s: seq<T>, p: T -> bool)
    ensures forall x :: x in Keep(s, p) <==> x in s && p(x)
  {
    if s != [] {
      KeepMembers(s[1..], p);
      assert forall x :: x in s <==> x == s[0] || x in s[1..];
    }
  }

  /** Deleting the elements outside a class a second time deletes nothing. */
  lemma {:induction false} KeepIdempotent<T(!new)>(s: seq<T>, p: T -> bool)
    ensures Keep(Keep(s, p), p) == Keep(s, p)
  {
    var r := Keep(s, p);
    KeepAll(r, p);
  }

  /** A sequence whose elements all satisfy the class is kept whole. */
  lemma {:induction false} KeepAll<T(!new)>(s: seq<T>, p: T -> bool)
    requires forall k :: 0 <= k < |s| ==> p(s[k])
    ensures Keep(s, p) == s
  {
    if s != [] {
      KeepAll(s[1..], p);
    }
  }

  lemma {:induction false} KeepAppend<T(!new)>(a: seq<T>, b: seq<T>, p: T -> bool)
    ensures Keep(a + b, p) == Keep(a, p) + Keep(b, p)
  {
    if a == [] {
      assert a + b == b;
    } else {
      assert (a + b)[1..] == a[1..] + b;
      KeepAppend(a[1..], b, p);
    }
  }

  /** Filtering with `p` and then with `q` is filtering with a test `pq`
      that passes exactly what passes both. */
  lemma {:induction false} KeepKeep<T(!new)>(s: seq<T>, p: T -> bool, q: T -> bool, pq: T -> bool)
    requires forall x :: pq(x) == (p(x) && q(x))
    ensures Keep(Keep(s, p), q) == Keep(s, pq)
  {
    if s != [] {
      KeepKeep(s[1..], p, q, pq);
      if p(s[0]) {
        assert Keep(s, p) == [s[0]] + Keep(s[1..], p);
      }
    }
  }

  /** `re.sub(x, y, s)` for a one-character pattern `x` and replacement `y`. */
  function Replace(s: string, x: char, y: char): (r: string)
    ensures |r| == |s|
    ensures forall k :: 0 <= k < |s| ==> r[k] == (if s[k] == x then y else s[k])
  {
    if s == [] then [] else [if s[0] == x then y else s[0]] + Replace(s[1..], x, y)
  }

  /** End of the longest run of characters satisfying `p` that starts at `k`. */
  function Span(t: string, k: nat, p: char -> bool): (r: nat)
    requires k <= |t|
    ensures k <= r <= |t|
    ensures r == |t| || !p(t[r])
    decreases |t| - k
  {
    if k == |t| || !p(t[k]) then k else Span(t, k + 1, p)
  }

  /** Every character of the run `Span` finds satisfies `p`. */
  lemma {:induction false} SpanRun(t: string, k: nat, p: char -> bool)
    requires k <= |t|
    ensures forall j :: k <= j < Span(t, k, p) ==> p(t[j])
    decreases |t| - k
  {
    if k < |t| && p(t[k]) {
      SpanRun(t, k + 1, p);
    }
  }

  /** A run of `p` from `k` reaches at most as far as `Span`. */
  lemma {:induction false} SpanAtLeast(t: string, k: nat, p: char -> bool, e: nat)
    requires k <= e <= |t|
    requires forall j :: k <= j < e ==> p(t[j])
    ensures e <= Span(t, k, p)
    decreases e - k
  {
    if k < e {
      assert p(t[k]);
      SpanAtLeast(t, k + 1, p, e);
    }
  }

  /** A run of `p` from `k` that cannot be extended is the one `Span` finds. */
  lemma {:induction false} SpanExact(t: string, k: nat, p: char -> bool, e: nat)
    requires k <= e <= |t|
    requires forall j :: k <= j < e ==> p(t[j])
    requires e == |t| || !p(t[e])
    ensures Span(t, k, p) == e
    decreases e - k
  {
    if k < e {
      assert p(t[k]);
      SpanExact(t, k + 1, p, e);
    }
  }

  predicate IsWordChar(c: char) {
    !IsSpace(c)
  }

  predicate IsWord(w: string) {
    w != [] && forall k :: 0 <= k < |w| ==> IsWordChar(w[k])
  }

  /** `str.split()` with no separator: the maximal runs of non-whitespace
      characters, in order. */
  function Words(s: string): (ws: seq<string>)
    ensures forall i :: 0 <= i < |ws| ==> IsWord(ws[i])
    ensures forall i, k :: 0 <= i < |ws| && 0 <= k < |ws[i]| ==> ws[i][k] in s
    decreases |s|
  {
    if s == [] then []
    else if IsSpace(s[0]) then Words(s[1..])
    else
      var n := Span(s, 0, IsWordChar);
      SpanRun(s, 0, IsWordChar);
      var rest := Words(s[n..]);
      assert forall c :: c in s[n..] ==> c in s;
      [s[..n]] + rest
  }

  /** `sep.join(xs)`. */
  function Join(sep: string, xs: seq<string>): (r: string)
    ensures |xs| == 0 ==> r == []
    ensures |xs| == 1 ==> r == xs[0]
    ensures |xs| >= 1 ==> xs[0] <= r
    ensures |xs| >= 2 ==> xs[0] + sep <= r
  {
    if |xs| == 0 then []
    else if |xs| == 1 then xs[0]
    else xs[0] + sep + Join(sep, xs[1..])
  }

  /** Appending an item to a non-empty join adds the separator and the
      item: `sep` stands between every two neighbouring items. */
  lemma {:induction false} JoinSnoc(sep: string, xs: seq<string>, x: string)
    requires xs != []
    ensures Join(sep, xs + [x]) == Join(sep, xs) + sep + x
  {
    if |xs| == 1 {
      assert (xs + [x])[1..] == [x];
    } else {
      assert (xs + [x])[1..] == xs[1..] + [x];
      JoinSnoc(sep, xs[1..], x);
    }
  }

  /** `w` occurs in `s` starting at index `a`. */
  predicate OccursAt(w: string, s: string, a: nat) {
    a + |w| <= |s| && s[a..a + |w|] == w
  }

  /** `w` occurs in `s` as a substring: `w in s` on Python strings. */
  predicate Occurs(w: string, s: string) {
    exists a: nat :: a <= |s| && OccursAt(w, s, a)
  }

  /** Every item occurs in the join. */
  lemma {:induction false} JoinOccurs(sep: string, xs: seq<string>, i: nat)
    requires i < |xs|
    ensures Occurs(xs[i], Join(sep, xs))
  {
    var r := Join(sep, xs);
    if i == 0 {
      assert OccursAt(xs[0], r, 0);
    } else {
      var rest := Join(sep, xs[1..]);
      JoinOccurs(sep, xs[1..], i - 1);
      var a: nat :| a <= |rest| && OccursAt(xs[i], rest, a);
      var off := |xs[0]| + |sep|;
      assert r == xs[0] + sep + rest;
      assert r[off + a..off + a + |xs[i]|] == rest[a..a + |xs[i]|];
      assert OccursAt(xs[i], r, off + a);
    }
  }

  /** `''.join(xs)`: `Join` with the empty separator (`ConcatIsJoin`),
      written on its own because the key construction reasons about it
      piece by piece. */
  function Concat(xs: seq<string>): (r: string)
    ensures |xs| == 0 ==> r == []
  {
    if |xs| == 0 then [] else xs[0] + Concat(xs[1..])
  }

  /** `str.split()` drops the whitespace and nothing else: its words, run
      together, are the text's non-whitespace characters in order. */
  lemma {:induction false} WordsConcat(s: string)
    ensures Concat(Words(s)) == Keep(s, IsWordChar)
    decreases |s|
  {
    if s != [] {
      assert s == [s[0]] + s[1..];
      if IsSpace(s[0]) {
        KeepAppend([s[0]], s[1..], IsWordChar);
        assert Keep([s[0]], IsWordChar) == [];
        WordsConcat(s[1..]);
      } else {
        var n := Span(s, 0, IsWordChar);
        SpanRun(s, 0, IsWordChar);
        assert s == s[..n] + s[n..];
        KeepAppend(s[..n], s[n..], IsWordChar);
        KeepAll(s[..n], IsWordChar);
        WordsConcat(s[n..]);
        assert Words(s) == [s[..n]] + Words(s[n..]);
        assert ([s[..n]] + Words(s[n..]))[1..] == Words(s[n..]);
      }
    }
  }

  /** A word followed by whitespace or the end of the text is split off
      whole: together with `WordsOfSpaceLed` this fixes `Words` on every
      text, so words break exactly at runs of whitespace. */
  lemma {:induction false} WordsCons(w: string, s: string)
    requires IsWord(w) && (s == [] || IsSpace(s[0]))
    ensures Words(w + s) == [w] + Words(s)
  {
    var t := w + s;
    assert forall j :: 0 <= j < |w| ==> t[j] == w[j];
    assert |w| < |t| ==> t[|w|] == s[0];
    SpanExact(t, 0, IsWordChar, |w|);
    assert t[..|w|] == w;
    assert t[|w|..] == s;
  }

  /** `Concat` is `Join` with the empty separator. */
  lemma {:induction false} ConcatIsJoin(xs: seq<string>)
    ensures Concat(xs) == Join("", xs)
  {
    if |xs| > 1 {
      ConcatIsJoin(xs[1..]);
      assert xs[0] + "" == xs[0];
      if |xs[1..]| == 1 {
        assert Concat(xs[1..]) == xs[1] + Concat([]);
      }
    } else if |xs| == 1 {
      assert Concat(xs) == xs[0] + Concat([]);
    }
  }

  lemma {:induction false} WordsOfSpaceLed(s: string)
    requires s != [] && IsSpace(s[0])
    ensures Words(s) == Words(s[1..])
  {
  }

  /** `Words` undoes a join with single spaces: splitting the joined text
      gives back exactly the words that were joined. */
  lemma {:induction false} WordsJoin(ws: seq<string>)
    requires forall i :: 0 <= i < |ws| ==> IsWord(ws[i])
    ensures Words(Join(" ", ws)) == ws
  {
    if |ws| == 0 {
    } else {
      var w := ws[0];
      var tail := if |ws| == 1 then "" else " " + Join(" ", ws[1..]);
      var s := w + tail;
      assert Join(" ", ws) == s;
      assert s[0] == w[0];
      var n := Span(s, 0, IsWordChar);
      assert forall j :: 0 <= j < |w| ==> s[j] == w[j];
      assert |ws| > 1 ==> s[|w|] == ' ';
      SpanExact(s, 0, IsWordChar, |w|);
      assert s[..n] == w;
      assert s[n..] == tail;
      if |ws| == 1 {
        assert Words(s) == [w] + Words([]);
      } else {
        WordsOfSpaceLed(tail);
        assert tail[1..] == Join(" ", ws[1..]);
        WordsJoin(ws[1..]);
        assert Words(s) == [w] + ws[1..];
        assert [w] + ws[1..] == ws;
      }
    }
  }

  /** Upper-case form of an ASCII lower-case letter; other characters are
      kept. */
  function UpperAscii(c: char): (r: char)
    ensures IsAsciiLower(c) ==> IsAsciiUpper(r) && LowerChar(r) == [c]
    ensures !IsAsciiLower(c) ==> r == c
  {
    if IsAsciiLower(c) then (c as int - 32) as char else c
  }

  /** `str.capitalize`: first character upper-cased, the rest lower-cased.
      Only ASCII letters change case here (see README). */
  function Capitalize(w: string): (r: string)
    ensures w == [] ==> r == []
    ensures w != [] ==> r != [] && r[0] == UpperAscii(w[0])
    ensures w != [] ==> r[1..] == Lower(w[1..])
    ensures forall k :: 1 <= k < |r| ==> !IsAsciiUpper(r[k])
  {
    if w == [] then [] else [UpperAscii(w[0])] + Lower(w[1..])
  }

  /** The word with its first character upper-cased and the rest kept as
      they are. */
  function UpperFirst(w: string): (r: string)
    ensures |r| == |w|
    ensures forall k :: 1 <= k < |w| ==> r[k] == w[k]
    ensures w != [] ==> r[0] == UpperAscii(w[0])
  {
    if w == [] then [] else [UpperAscii(w[0])] + w[1..]
  }

  /** Lower-casing a capitalised lower-case ASCII word gives the word back. */
  lemma {:induction false} LowerCapitalize(w: string)
    requires forall k :: 0 <= k < |w| ==> IsLowerFixed(w[k])
    ensures Lower(Capitalize(w)) == w
  {
    if w != [] {
      LowerIdentity(w[1..]);
      var c := UpperAscii(w[0]);
      LowerAppend([c], w[1..]);
      assert Lower([c]) == LowerChar(c) + Lower([]);
      assert LowerChar(c) == [w[0]];
      assert w == [w[0]] + w[1..];
    }
  }

  lemma {:induction false} LowerConcat(xs: seq<string>)
    ensures Lower(Concat(xs)) == Concat(seq(|xs|, i requires 0 <= i < |xs| => Lower(xs[i])))
  {
    if |xs| > 0 {
      LowerAppend(xs[0], Concat(xs[1..]));
      LowerConcat(xs[1..]);
      var ys := seq(|xs|, i requires 0 <= i < |xs| => Lower(xs[i]));
      assert ys[1..] == seq(|xs[1..]|, i requires 0 <= i < |xs[1..]| => Lower(xs[1..][i]));
    }
  }

  /** A property every character of every piece has holds of the pieces'
      concatenation. */
  lemma {:induction false} ConcatChars(xs: seq<string>, p: char -> bool)
    requires forall i, k :: 0 <= i < |xs| && 0 <= k < |xs[i]| ==> p(xs[i][k])
    ensures forall k :: 0 <= k < |Concat(xs)| ==> p(Concat(xs)[k])
  {
    if |xs| > 0 {
      ConcatChars(xs[1..], p);
      var r := Concat(xs);
      assert r == xs[0] + Concat(xs[1..]);
      forall k | 0 <= k < |r|
        ensures p(r[k])
      {
        if k >= |xs[0]| {
          assert r[k] == Concat(xs[1..])[k - |xs[0]|];
        }
      }
    }
  }

  /** Splits `s` around the last occurrence of `c`. */
  function SplitAtLast(s: string, c: char): (r: (string, string))
    requires c in s
    ensures s == r.0 + [c] + r.1
    ensures c !in r.1
    decreases |s|
  {
    var n := |s| - 1;
    if s[n] == c then
      assert s == s[..n] + [c] + [];
      (s[..n], [])
    else
      assert c in s[..n] by {
        var k :| 0 <= k < |s| && s[k] == c;
        assert k < n;
        assert s[..n][k] == c;
      }
      var (a, b) := SplitAtLast(s[..n], c);
      assert s == s[..n] + [s[n]];
      (a, b + [s[n]])
  }

  /** Any split around an occurrence of `c` with no `c` after it is the one
      `SplitAtLast` finds. */
  lemma {:induction false} SplitAtLastUnique(a: string, c: char, b: string)
    requires c !in b
    ensures SplitAtLast(a + [c] + b, c) == (a, b)
    decreases |b|
  {
    var s := a + [c] + b;
    var n := |s| - 1;
    if b == [] {
      assert s[n] == c;
      assert s[..n] == a;
    } else {
      var b' := b[..|b| - 1];
      assert s[n] == b[|b| - 1] != c;
      assert s[..n] == a + [c] + b';
      assert forall k :: 0 <= k < |b'| ==> b'[k] == b[k];
      assert c !in b';
      SplitAtLastUnique(a, c, b');
      assert b' + [b[|b| - 1]] == b;
    }
  }

  /** Filters that agree on every element of `s` keep the same elements. */
  lemma {:induction false} KeepCongruent<T(!new)>(s: seq<T>, p: T -> bool, q: T -> bool)
    requires forall k :: 0 <= k < |s| ==> p(s[k]) == q(s[k])
    ensures Keep(s, p) == Keep(s, q)
  {
    if s != [] {
      KeepCongruent(s[1..], p, q);
    }
  }
}

=== FILE: wrappers.dfy ===
/** Option and Result, the two failure-carrying datatypes the model uses in
    place of Python's `None` returns and raised exceptions. */
module Wrappers {

  /** A value that may be absent, as a Python function returning `None`. */
  datatype Option<+T> = None | Some(value: T)

  /** A value or the error a Python call would raise instead of returning it. */
  datatype Result<+T, +E> = Ok(value: T) | Err(error: E) {

    predicate IsFailure() {
      Err?
    }

    function PropagateFailure<U>(): Result<U, E>
      requires Err?
    {
      Err(error)
    }

    function Extract(): T
      requires Ok?
    {
      value
    }
  }
}
